=== FILE: README.md ===
# fluffy-guacamole in Dafny

A model of the statable logic of a small Android media app. The app records audio, takes photos and videos, keeps a catalog of them in a local database, and plays audio back with a volume that the device's tilt can drive. Every platform object is an abstract input or abstract state. That covers the player, the recorder, the sensor service, the content resolver, the metadata retriever, the file provider, the database engine and the clock. Each call is one atomic step.

Modules, one per source file:

- `Durations` (`Utilidades.kt`): `formatDuration`, the `MM:SS` rendering of milliseconds.
- `Media` (`MediaItem.kt`): the `MediaType` enum and the `MediaItem` record.
- `MediaDao` (`MediaDao.kt`): the table as a map from primary key to row, plus the AUTOINCREMENT high-water mark.
  - Insert uses REPLACE; the default id 0 means "let the store pick a fresh id".
  - The query filters by kind and stable-sorts by `date`, newest first.
  - The engine's visiting order is an input (`scan`), so the order among equal dates is not fixed.
  - `MediaDao.QueryFixedUpToEqualDates` proves that is the only freedom.
- `MediaRepository` (`MediaRepository.kt`): the per-kind getters and the insert, all delegating to the DAO.
- `Decimal`: Kotlin's `toLongOrNull`, used for the duration metadata.
- `MediaCatalog` (`MediaViewModel.kt`): the name and duration fallbacks, and the record built and inserted from a content uri or a file.
- `Settings` (`SettingsRepository.kt`): the default volume and the clamping save, over a key-value map.
- `Playback` (`PlaybackViewModel.kt`): play/pause, release, the accelerometer toggle, the tilt-to-volume map and `setVolume`. Volumes are reals.
- `AudioRecorder` (`AudioRecorder.kt`): the start/stop state machine over platform recorders that may throw.
- `RecordingScreen` (`RecordingScreen.kt`): the permission gate, the record and capture buttons, the camera results and the file-naming table. The screen's calls come back as a list of effects.
- `AudioList` (`AudioListScreen.kt`): the list entries, the per-card playing flag, and the play-button selection logic. The selection logic is wired to `Playback`.
- `Routes` (`ui.kt`): the screen routes, `createRoute`, the bottom bar, and route resolution.

Some behaviour follows the code where a reader might expect otherwise:

- A NULL display name does not fall back to `"Unknown"`. It is assigned to a non-null Kotlin local, which throws. That exception aborts the whole insert (`MediaCatalog.NameOf`).
- A failed `start` leaves the failed recorder in the field (see Findings).

## Model

| member | source | states |
|---|---|---|
| Durations.FormatDuration | app/src/main/java/com/example/fluffy_guacamole/Utilidades.kt:8-15 | The result is always two digits, a colon and two digits, each field below 60. It is `"00:00"` for every non-positive input. For positive input, the minutes field reads back as whole minutes mod 60 and the seconds field as whole seconds mod 60. |
| Durations.TwoDigitsRoundTrip | app/src/main/java/com/example/fluffy_guacamole/Utilidades.kt:11 | A `%02d` field of a value below 100 reads back as that value. |
| Durations.WholeSeconds | app/src/main/java/com/example/fluffy_guacamole/Utilidades.kt:13 | The whole-second count truncates toward zero. For a non-negative input it is the largest count whose milliseconds do not exceed it. For a negative input it is the smallest count whose milliseconds reach the input, and never positive. |
| Durations.WholeMinutes | app/src/main/java/com/example/fluffy_guacamole/Utilidades.kt:12 | The whole-minute count truncates toward zero in the same way. |
| Durations.WholeUnitsOfClockFace | app/src/main/java/com/example/fluffy_guacamole/Utilidades.kt:12-13 | The duration a clock face below one hour names has exactly its minutes as whole minutes, and minutes times 60 plus seconds as whole seconds. |
| Durations.HoursAreDropped | app/src/main/java/com/example/fluffy_guacamole/Utilidades.kt:12 | Adding one hour to a positive duration leaves its rendering unchanged. |
| Durations.WholeHoursRenderZero | app/src/main/java/com/example/fluffy_guacamole/Utilidades.kt:12 | Every positive whole number of hours renders as `"00:00"`. |
| Durations.SubSecondRendersZero | app/src/main/java/com/example/fluffy_guacamole/Utilidades.kt:9-13 | Every duration below one second, 1..999 included, renders as `"00:00"`. |
| Durations.SameSecondsSameRendering | app/src/main/java/com/example/fluffy_guacamole/Utilidades.kt:12-13 | Any two inputs with the same whole-second count render identically. |
| Durations.EveryClockFaceReached | app/src/main/java/com/example/fluffy_guacamole/Utilidades.kt:10-14 | Every pair of minutes and seconds below 60 is rendered for the duration it names. |
| Media.NewItem | app/src/main/java/com/example/fluffy_guacamole/data/MediaItem.kt:8-16 | A record built without an id carries the default id 0 and the given field values. |
| Media.KindNamesRoundTrip | app/src/main/java/com/example/fluffy_guacamole/data/MediaItem.kt:6 | Each kind's name reads back as that kind, so the three names are distinct. |
| MediaDao.Insert | app/src/main/java/com/example/fluffy_guacamole/data/MediaDao.kt:12-13 | The table stays keyed by id. The row is stored under its own id, or under a fresh positive id when its id is the default 0. Every row under another key is unchanged. |
| MediaDao.AssignedId | app/src/main/java/com/example/fluffy_guacamole/data/MediaItem.kt:9-10 | A non-default id is kept. The default id 0 gets an id past the high-water mark, which in a valid table is positive and unused. |
| MediaDao.ReplaceKeepsRowCount | app/src/main/java/com/example/fluffy_guacamole/data/MediaDao.kt:12-13 | Inserting under an existing id replaces that row and keeps the row count. |
| MediaDao.FreshKeyAddsOneRow | app/src/main/java/com/example/fluffy_guacamole/data/MediaItem.kt:9-10 | Inserting under an unused id, or with the default id, adds exactly one row. |
| MediaDao.InKindIffStoredUnderOwnId | app/src/main/java/com/example/fluffy_guacamole/data/MediaItem.kt:9 | In a table keyed by primary key, a row of a kind is exactly a record stored under its own id. |
| MediaDao.Select | app/src/main/java/com/example/fluffy_guacamole/data/MediaDao.kt:14 | The filter returns, without repeats, exactly the scanned rows of the requested kind. |
| MediaDao.SortByDate | app/src/main/java/com/example/fluffy_guacamole/data/MediaDao.kt:14 | The sort returns a permutation of its input whose dates never increase. |
| MediaDao.GetMediaByType | app/src/main/java/com/example/fluffy_guacamole/data/MediaDao.kt:14-15 | Every result has the requested kind. The result is a permutation of the stored rows of that kind. It is ordered by date, newest first. |
| MediaDao.SortedPermutationsAgreeOnDates | app/src/main/java/com/example/fluffy_guacamole/data/MediaDao.kt:14 | Two date-sorted permutations of the same rows carry the same date at every position. |
| MediaDao.QueryFixedUpToEqualDates | app/src/main/java/com/example/fluffy_guacamole/data/MediaDao.kt:14 | For any two engine scan orders, the query returns the same rows with the same dates at every position. Only rows with equal dates can trade places. |
| MediaRepository.GetAllAudio | app/src/main/java/com/example/fluffy_guacamole/data/MediaRepository.kt:6-8 | Equals the DAO query for AUDIO, and holds exactly the stored audio rows. |
| MediaRepository.GetAllImages | app/src/main/java/com/example/fluffy_guacamole/data/MediaRepository.kt:9-11 | Equals the DAO query for IMAGE, and holds exactly the stored image rows. |
| MediaRepository.GetAllVideos | app/src/main/java/com/example/fluffy_guacamole/data/MediaRepository.kt:12-14 | Equals the DAO query for VIDEO, and holds exactly the stored video rows. |
| MediaRepository.InsertMedia | app/src/main/java/com/example/fluffy_guacamole/data/MediaRepository.kt:15-17 | Is the DAO insert of the same record. The stored row is the record with its assigned id. |
| MediaRepository.KindsSplitRows | app/src/main/java/com/example/fluffy_guacamole/data/MediaItem.kt:15 | The rows of the three kinds are pairwise disjoint and together make up the table. |
| MediaRepository.ListsPartitionTheStore | app/src/main/java/com/example/fluffy_guacamole/data/MediaRepository.kt:6-14 | The three lists share no row. Together they hold every stored row exactly once. |
| Decimal.ToLongOrNull | app/src/main/java/com/example/fluffy_guacamole/viewmodel/MediaViewModel.kt:91 | A parsed value lies in the signed 64-bit range. A value is given only for digits, optionally after one leading sign. So the empty string, a bare sign and every string without a digit give no value. |
| Decimal.MalformedIsNone | app/src/main/java/com/example/fluffy_guacamole/viewmodel/MediaViewModel.kt:91 | Any character that is not a digit, outside the leading sign position, makes the text give no value. |
| Decimal.MalformedExamples | app/src/main/java/com/example/fluffy_guacamole/viewmodel/MediaViewModel.kt:91 | `"1.5"`, `"12s"`, `"1:30"` and `" 42"` give no value. |
| Decimal.ParsesRenderedLong | app/src/main/java/com/example/fluffy_guacamole/viewmodel/MediaViewModel.kt:90-91 | Every non-negative Long, written in decimal, parses back to itself. |
| Decimal.ParsesRenderedNegativeLong | app/src/main/java/com/example/fluffy_guacamole/viewmodel/MediaViewModel.kt:91 | Every negative Long, written with a minus sign, parses back to itself. |
| Decimal.OverflowIsNone | app/src/main/java/com/example/fluffy_guacamole/viewmodel/MediaViewModel.kt:91 | Every number above the largest Long, written in decimal, gives no value rather than a wrapped one. |
| Decimal.NegativeOverflowIsNone | app/src/main/java/com/example/fluffy_guacamole/viewmodel/MediaViewModel.kt:91 | Every number below the smallest Long, written with a minus sign, gives no value. |
| MediaCatalog.NameOf | app/src/main/java/com/example/fluffy_guacamole/viewmodel/MediaViewModel.kt:75-85 | The name is `"Unknown"` without a cursor, without a first row, or without the display-name column. It is the first row's value when that value is present. A failing query or a NULL value throws. |
| MediaCatalog.DurationOf | app/src/main/java/com/example/fluffy_guacamole/viewmodel/MediaViewModel.kt:86-95 | The duration is never out of the Long range. It is 0 when the retriever throws or the key is absent. Otherwise it is the parsed value when the text parses. |
| MediaCatalog.GetMetadata | app/src/main/java/com/example/fluffy_guacamole/viewmodel/MediaViewModel.kt:74-97 | Throws exactly when the name lookup throws. Otherwise it returns the name read and the duration read. |
| MediaCatalog.RenderedDurationIsRead | app/src/main/java/com/example/fluffy_guacamole/viewmodel/MediaViewModel.kt:90-91 | A duration the retriever reports as a decimal number is read back exactly. |
| MediaCatalog.UnreadableDurationIsZero | app/src/main/java/com/example/fluffy_guacamole/viewmodel/MediaViewModel.kt:87-95 | Duration text the parser rejects gives 0 and keeps the name that was read. |
| MediaCatalog.MalformedDurationIsZero | app/src/main/java/com/example/fluffy_guacamole/viewmodel/MediaViewModel.kt:90-91 | Duration text with a non-digit outside the leading sign position, such as a fractional, suffixed or clock-style value, gives 0 and keeps the name that was read. |
| MediaCatalog.InsertMediaFromUri | app/src/main/java/com/example/fluffy_guacamole/viewmodel/MediaViewModel.kt:41-58 | On success it adds one row under a fresh id, holding the uri, the name read, the clock's time, the duration read and the caller's kind. Other rows are unchanged. On any exception the table is unchanged. |
| MediaCatalog.InsertFromUriRowCount | app/src/main/java/com/example/fluffy_guacamole/viewmodel/MediaViewModel.kt:43-56 | The row count grows by one on success and stays the same on any exception. |
| MediaCatalog.InsertMediaFromFile | app/src/main/java/com/example/fluffy_guacamole/viewmodel/MediaViewModel.kt:59-72 | Does nothing when the file provider throws. Otherwise it is exactly the uri insert of the provider's content uri. |
| Settings.CoerceIn | app/src/main/java/com/example/fluffy_guacamole/data/SettingsRepository.kt:26 | The result lies in the range, and a value already in range is returned unchanged. |
| Settings.Clamp01 | app/src/main/java/com/example/fluffy_guacamole/data/SettingsRepository.kt:26 | The clamped volume lies in [0,1]. |
| Settings.CoerceInIsNearest | app/src/main/java/com/example/fluffy_guacamole/data/SettingsRepository.kt:26 | The coerced value is the point of the range nearest to the input. |
| Settings.CoerceInIdempotent | app/src/main/java/com/example/fluffy_guacamole/data/SettingsRepository.kt:26 | Coercing twice is the same as coercing once. |
| Settings.UserVolume | app/src/main/java/com/example/fluffy_guacamole/data/SettingsRepository.kt:20-22 | Reads 0.5 when no volume is stored, else the stored volume. |
| Settings.SaveVolume | app/src/main/java/com/example/fluffy_guacamole/data/SettingsRepository.kt:24-28 | Writes the volume key with a value in [0,1] and changes no other key. |
| Settings.ReadVolumeInRange | app/src/main/java/com/example/fluffy_guacamole/data/SettingsRepository.kt:20-28 | A store whose stored volume lies in [0,1], as every save leaves it, reads a volume in [0,1]. |
| Settings.ReadAfterSave | app/src/main/java/com/example/fluffy_guacamole/data/SettingsRepository.kt:20-28 | A read after a save gives the clamped value. A value already in [0,1] comes back unchanged. |
| Settings.SaveIdempotent | app/src/main/java/com/example/fluffy_guacamole/data/SettingsRepository.kt:24-28 | Saving back the volume just read after a save changes nothing. |
| Playback.CurrentVolume | app/src/main/java/com/example/fluffy_guacamole/viewmodel/PlaybackViewModel.kt:38-43 | The observed volume is 0.5 before the store emits, and 0.5 when the store holds no volume. Otherwise it is the stored volume, and it lies in [0,1] for a store written through saves. |
| Playback.Init | app/src/main/java/com/example/fluffy_guacamole/viewmodel/PlaybackViewModel.kt:28-57 | A new view model is not playing, not asked to play, and has no media. Its toggle is off, no listener is registered, and its player volume is 0.5. It keeps the device's sensor availability and the store as given. |
| Playback.OnVolumeEmitted | app/src/main/java/com/example/fluffy_guacamole/viewmodel/PlaybackViewModel.kt:46-50 | An emission of the store sets the player's volume to the stored volume and changes nothing else. |
| Playback.OnIsPlayingChanged | app/src/main/java/com/example/fluffy_guacamole/viewmodel/PlaybackViewModel.kt:52-56 | The player's report sets the playing flag and nothing else. |
| Playback.PlayMedia | app/src/main/java/com/example/fluffy_guacamole/viewmodel/PlaybackViewModel.kt:59-64 | Loads the uri and asks the player to play. The volume, the playing report, the released flag and everything outside the player are unchanged. |
| Playback.TogglePlayPause | app/src/main/java/com/example/fluffy_guacamole/viewmodel/PlaybackViewModel.kt:65-72 | A playing player is paused and reports not playing. Any other player is asked to play. Media, volume, the released flag and everything outside the player are unchanged. |
| Playback.PauseThenPlayResumes | app/src/main/java/com/example/fluffy_guacamole/viewmodel/PlaybackViewModel.kt:65-72 | Two toggles from playing ask the player to play the same media again. |
| Playback.ReleasePlayer | app/src/main/java/com/example/fluffy_guacamole/viewmodel/PlaybackViewModel.kt:73-76 | Releases the player and always leaves no listener registered. Nothing else changes: the toggle, the store and the player's media, volume and play state keep their values. |
| Playback.ReleaseThenToggleTwiceReregisters | app/src/main/java/com/example/fluffy_guacamole/viewmodel/PlaybackViewModel.kt:73-87 | After a release with the toggle on, the toggle reads on while nothing listens. The next toggle leaves nothing registered either. Only a second toggle re-registers, exactly when a sensor exists. |
| Playback.ToggleAccelerometer | app/src/main/java/com/example/fluffy_guacamole/viewmodel/PlaybackViewModel.kt:78-95 | Flips the toggle. Off to on registers the listener exactly when a sensor exists. On to off unregisters it. The player and the store are untouched. |
| Playback.ToggleTwice | app/src/main/java/com/example/fluffy_guacamole/viewmodel/PlaybackViewModel.kt:78-87 | Two toggles restore the toggle. Starting from on, the listener is registered exactly when a sensor exists. Starting from off, none is left registered. |
| Playback.TiltVolume | app/src/main/java/com/example/fluffy_guacamole/viewmodel/PlaybackViewModel.kt:103-104 | The tilt volume lies in [0,1]. It is 0 for y at most -5 and 1 for y at least 5. |
| Playback.TiltVolumeMonotone | app/src/main/java/com/example/fluffy_guacamole/viewmodel/PlaybackViewModel.kt:103-104 | Tilting further never lowers the volume. |
| Playback.TiltVolumeReachesEveryVolume | app/src/main/java/com/example/fluffy_guacamole/viewmodel/PlaybackViewModel.kt:103-104 | Every volume in [0,1] comes from the tilt 10v-5, so the map inverts the linear part. |
| Playback.SetVolume | app/src/main/java/com/example/fluffy_guacamole/viewmodel/PlaybackViewModel.kt:113-120 | The player and the store get the same clamped volume. The store gains at most the volume key, and no other key changes. Nothing else in the player or the view model changes. |
| Playback.StoreEchoAgreesWithPlayer | app/src/main/java/com/example/fluffy_guacamole/viewmodel/PlaybackViewModel.kt:113-119 | When the store echoes a volume just set, applying it to the player changes nothing. |
| Playback.OnSensorChanged | app/src/main/java/com/example/fluffy_guacamole/viewmodel/PlaybackViewModel.kt:96-108 | An accelerometer reading sets the player and the store to the tilt volume of its y axis and changes nothing else. Any other event leaves the state unchanged. |
| AudioRecorder.Stop | app/src/main/java/com/example/fluffy_guacamole/data/AudioRecorder.kt:38-48 | The field is null afterwards, whether or not the platform stop throws. The held recorder is released, finalised only if it was recording and its stop did not throw. Without a held recorder the call does nothing. |
| AudioRecorder.IdleIsValid | app/src/main/java/com/example/fluffy_guacamole/data/AudioRecorder.kt:9 | A new wrapper holds no recorder and satisfies the invariant. |
| AudioRecorder.Configure | app/src/main/java/com/example/fluffy_guacamole/data/AudioRecorder.kt:22-26 | A new recorder is configured with microphone, MPEG-4, AAC and the output path. |
| AudioRecorder.Start | app/src/main/java/com/example/fluffy_guacamole/data/AudioRecorder.kt:19-37 | Every earlier recorder is first stopped exactly as `stop` does, with nothing else about it changed. The field then holds the new, configured recorder. It is recording on success, and on failure it is still held, unstarted and unreleased. |
| AudioRecorder.FailedStartHoldsUnreleasedRecorder | app/src/main/java/com/example/fluffy_guacamole/data/AudioRecorder.kt:27-36 | After a failed start the field holds a recorder that never started. The next stop releases it unfinalised. |
| AudioRecorder.StartReleasingOnFailure | app/src/main/java/com/example/fluffy_guacamole/data/AudioRecorder.kt:30-35 | Earlier recorders are stopped exactly as `stop` does. With the handler as its comment intends, a failed start leaves the field null and the new recorder released. A successful start holds the recording recorder. |
| AudioRecorder.IntendedFailedStartReleasesEverything | app/src/main/java/com/example/fluffy_guacamole/data/AudioRecorder.kt:32-34 | With the intended handler, after a failed start nothing is held and every recorder is released. |
| AudioRecorder.VersionsAgreeOnSuccess | app/src/main/java/com/example/fluffy_guacamole/data/AudioRecorder.kt:19-29 | The written and the intended start agree whenever the recorder starts. |
| AudioRecorder.StartThenStopFinalizes | app/src/main/java/com/example/fluffy_guacamole/data/AudioRecorder.kt:19-48 | A successful start followed by a clean stop finalises the recording on the requested file and clears the field. |
| RecordingScreen.FileName | app/src/main/java/com/example/fluffy_guacamole/ui/RecordingScreen.kt:223-224 | The name is the kind's name, an underscore, the timestamp and the kind's extension. |
| RecordingScreen.ExtensionOf | app/src/main/java/com/example/fluffy_guacamole/ui/RecordingScreen.kt:218-222 | Every extension is four characters starting with a dot. |
| RecordingScreen.StorageDistinguishesKinds | app/src/main/java/com/example/fluffy_guacamole/ui/RecordingScreen.kt:218-222 | Different kinds never share a directory or an extension. |
| RecordingScreen.CreateTempFile | app/src/main/java/com/example/fluffy_guacamole/ui/RecordingScreen.kt:217-227 | The file lies in the kind's directory. Its name parses back to the kind and the timestamp. |
| RecordingScreen.FileNameRoundTrip | app/src/main/java/com/example/fluffy_guacamole/ui/RecordingScreen.kt:224 | Parsing a built file name gives back its kind and timestamp. |
| RecordingScreen.FileNamesDistinct | app/src/main/java/com/example/fluffy_guacamole/ui/RecordingScreen.kt:218-224 | Different kinds or timestamps never produce the same file name. |
| RecordingScreen.InitialIsValid | app/src/main/java/com/example/fluffy_guacamole/ui/RecordingScreen.kt:60-66 | The screen's first state satisfies the invariant and shows only the grant button. |
| RecordingScreen.ControlsFollowPermissionGate | app/src/main/java/com/example/fluffy_guacamole/ui/RecordingScreen.kt:118-166 | The grant button and the three recording controls are never shown together. The controls are shown exactly with permissions. The record button is always enabled, and the capture buttons only while no audio records. |
| RecordingScreen.AllAnswersGranted | app/src/main/java/com/example/fluffy_guacamole/ui/RecordingScreen.kt:71-73 | The as-written reading is granted exactly when every returned answer is positive, so also when none is returned. |
| RecordingScreen.RequiredGranted | app/src/main/java/com/example/fluffy_guacamole/ui/RecordingScreen.kt:71-73 | The intended reading is granted only when every required permission is answered and granted. It is never granted on an empty answer. |
| RecordingScreen.PermissionReadingsAgreeOnFullAnswers | app/src/main/java/com/example/fluffy_guacamole/ui/RecordingScreen.kt:71-73 | When the answer covers exactly the required permissions, the two readings agree. |
| RecordingScreen.InterruptedRequestShowsControls | app/src/main/java/com/example/fluffy_guacamole/ui/RecordingScreen.kt:71-73 | An empty answer opens the recording controls as written, but not as intended. |
| RecordingScreen.OnPermissionResult | app/src/main/java/com/example/fluffy_guacamole/ui/RecordingScreen.kt:69-73 | The dialog's answer sets the permission flag to the as-written reading and changes nothing else. |
| RecordingScreen.OnPermissionResultIntended | app/src/main/java/com/example/fluffy_guacamole/ui/RecordingScreen.kt:69-73 | With the intended reading, the flag is set only when every required permission is granted. |
| RecordingScreen.OnFirstComposition | app/src/main/java/com/example/fluffy_guacamole/ui/RecordingScreen.kt:74-81 | Permissions count as granted exactly when every required one is already held. Otherwise the dialog is requested. |
| RecordingScreen.Click | app/src/main/java/com/example/fluffy_guacamole/ui/RecordingScreen.kt:118-172 | A button that is hidden or disabled does nothing. No click changes the permission flag. An audio file is held exactly while recording, and it is an audio file in the music directory. |
| RecordingScreen.RecordClickStarts | app/src/main/java/com/example/fluffy_guacamole/ui/RecordingScreen.kt:139-143 | Starting holds a new audio file, starts the recorder on it and sets the recording flag. |
| RecordingScreen.RecordClickStops | app/src/main/java/com/example/fluffy_guacamole/ui/RecordingScreen.kt:131-137 | Stopping stops the recorder and inserts the held file as AUDIO. It then clears the flag and the file. |
| RecordingScreen.RecordThenStopInsertsRecordedFile | app/src/main/java/com/example/fluffy_guacamole/ui/RecordingScreen.kt:129-145 | Start then stop inserts, as AUDIO, exactly the file the recorder was started on, and returns to the starting state. |
| RecordingScreen.CaptureUsableIffIdle | app/src/main/java/com/example/fluffy_guacamole/ui/RecordingScreen.kt:153-166 | The image and video buttons are usable exactly when permissions are held and no audio is recording. |
| RecordingScreen.NoPermissionsNoRecording | app/src/main/java/com/example/fluffy_guacamole/ui/RecordingScreen.kt:118-123 | Without permissions, no recording or capture button has any effect. |
| RecordingScreen.OnCaptureResult | app/src/main/java/com/example/fluffy_guacamole/ui/RecordingScreen.kt:84-104 | The pending uri is inserted with its kind only on success. It is cleared on both success and failure. The other kind's pending uri and the recording state are untouched. |
| RecordingScreen.CaptureRoundTrip | app/src/main/java/com/example/fluffy_guacamole/ui/RecordingScreen.kt:84-171 | The camera opens on the new file's uri. On success exactly that uri is inserted, with its kind. On failure nothing is inserted. |
| AudioList.Entries | app/src/main/java/com/example/fluffy_guacamole/ui/AudioListScreen.kt:88-110 | An empty list shows only the placeholder. Otherwise there is one card per item, in order. A card shows as playing exactly when the player plays and its uri is the selected one. |
| AudioList.PlayingCardsShareSelectedUri | app/src/main/java/com/example/fluffy_guacamole/ui/AudioListScreen.kt:100 | A card shows as playing only while the player plays and its uri is selected, so all playing cards hold that one uri. |
| AudioList.OnPlayClick | app/src/main/java/com/example/fluffy_guacamole/ui/AudioListScreen.kt:101-108 | Afterwards the clicked uri is selected. The command toggles play/pause exactly when the clicked uri was already selected; otherwise it plays that uri. |
| AudioList.Perform | app/src/main/java/com/example/fluffy_guacamole/ui/AudioListScreen.kt:102-106 | Playing a uri loads it and asks the player to play. Toggling asks to play exactly when the player was not playing. |
| AudioList.NoCardPlaysInitially | app/src/main/java/com/example/fluffy_guacamole/ui/AudioListScreen.kt:61-100 | With no selection, no card shows as playing. |
| AudioList.ClickOtherThenPlayingHighlightsIt | app/src/main/java/com/example/fluffy_guacamole/ui/AudioListScreen.kt:100-106 | After a click on a card that is not selected, once the player reports playing, the cards shown as playing are exactly those with the clicked uri. |
| AudioList.ClickPlayingCardPausesIt | app/src/main/java/com/example/fluffy_guacamole/ui/AudioListScreen.kt:100-103 | A click on the playing, selected card pauses the player and keeps the selection. Then no card shows as playing. |
| Routes.CreateRoute | app/src/main/java/com/example/fluffy_guacamole/ui/ui.kt:13-14 | The route is the player prefix followed by the uri. |
| Routes.Route | app/src/main/java/com/example/fluffy_guacamole/ui/ui.kt:8-13 | Each bar route is a single literal path segment. A route lies under the player prefix exactly when it is the player's template. |
| Routes.Resolve | app/src/main/java/com/example/fluffy_guacamole/AppNavigation.kt:76-80 | A bar destination is reached only by its own route, without an argument. The player is reached by its prefix and one segment, and the argument handed over is that segment decoded. Any other route reaches nothing. |
| Routes.BarRoutesResolve | app/src/main/java/com/example/fluffy_guacamole/ui/ui.kt:18-23 | Every bar route reaches its own screen. |
| Routes.CreateRouteResolves | app/src/main/java/com/example/fluffy_guacamole/ui/ui.kt:13-14 | A route built from a segment reaches the player, which is handed the decoded segment. |
| Routes.OpenVideoDecodesTwice | app/src/main/java/com/example/fluffy_guacamole/AppNavigation.kt:80-83 | When the list's encoding gives one segment that decoding inverts, the host hands over the original uri. The screen then decodes it a second time. |
| Routes.RoutesDistinct | app/src/main/java/com/example/fluffy_guacamole/ui/ui.kt:8-13 | The five routes are pairwise distinct, and the player's template starts with the `createRoute` prefix. |
| Routes.CreatedRouteNotOnBar | app/src/main/java/com/example/fluffy_guacamole/ui/ui.kt:8-14 | No route built by `createRoute` is a bar route. |
| Routes.NavBarShape | app/src/main/java/com/example/fluffy_guacamole/ui/ui.kt:18-23 | The bar holds four distinct screens and not the player. |

## Left out

- Compose layout and rendering: icons, colours, labels and text. `ImageListScreen.kt`, `VideoListScreen.kt`, `VideoPlayerScreen.kt` and `AppNavigation.kt` are wiring only, apart from the player route's argument (`Routes.Resolve`).
- Coroutines, Flow and StateFlow sharing, and `viewModelScope.launch`: each call is one atomic step. A `MutableStateFlow.update` lambda that re-runs under contention is not modelled.
- Room's SQL execution and its Flow re-emission on change. The table cannot run out of ids, and 32-bit overflow of auto-generated ids is not modelled.
- DataStore I/O failures. A preference of another type stored under the volume key is not modelled.
- Float arithmetic: volumes are reals, so NaN and IEEE rounding of `(y+5)/10` are not modelled. The `(volume*100).toInt()` label is not modelled.
- `formatDate`: it depends on the default locale and time zone. Timestamps in file names are inputs.
- Player internals (buffering, readiness, errors, calls after release): whether the player is playing arrives as the player's own report. The one exception is a pause: the player's synchronous not-playing state is set as part of the call (`Playback.TogglePlayPause`).
- The SDK-version branches: recorder construction and the list of required permissions. The required permissions are an input.
- The view-model factories and `app/build.gradle.kts`.
- `e.printStackTrace()` output.
- Durations.FormatDuration: inputs are unbounded integers rather than Longs. The function only divides positive values, so no Long overflow can occur. For inputs within an hour of `Long.MAX_VALUE`, `Durations.HoursAreDropped` speaks of sums the source could not form.
- Durations.FormatDuration: renders ASCII digits only. The source's `String.format` uses the default locale, which in some locales writes the fields in other digits.
- RecordingScreen.Click: the content-uri function is total. In the source, `FileProvider.getUriForFile` runs outside any `try` in the capture clicks, so if it throws, the exception escapes the click handler. That path is not modelled.
- Routes.Resolve: `Uri.encode`, Navigation's percent-decoding of path arguments and `Uri.decode` are abstract function parameters, and route matching abstracts the navigation host. A uri that is changed by a second decoding, for example one containing `%`, reaches the player screen altered. That is stated (`Routes.OpenVideoDecodesTwice`) but not explored further.
- Decimal.ToLongOrNull: accepts ASCII digits only. Kotlin also accepts other Unicode decimal digits.
- MediaCatalog.InsertMediaFromUri: a content uri is its string form. The nested coroutine launch of `insertMediaFromFile` is one step.
- AudioRecorder.Start: a configuration setter that throws (`setAudioSource` and the rest, outside the `try`) escapes to the click handler uncaught. That path is not modelled.
- RecordingScreen.Click: the screen sets the recording flag after `start` even when the recorder failed. The model does the same; the recorder's own state is in `AudioRecorder`.

## Findings

| source | as written | input that shows it | evidently intended | confidence | as-written member | corrected member |
|---|---|---|---|---|---|---|
| app/src/main/java/com/example/fluffy_guacamole/data/AudioRecorder.kt:27-36 | The failure handler releases and clears the field, which `stop()` has already set to null. The failed recorder is then assigned to the field, neither started nor released. | `start(file)` where `prepare()` or `start()` throws | Release the failed recorder and leave the field null, as the handler's comment says | high, not executed | AudioRecorder.FailedStartHoldsUnreleasedRecorder | AudioRecorder.IntendedFailedStartReleasesEverything |
| app/src/main/java/com/example/fluffy_guacamole/ui/RecordingScreen.kt:71-73 | `permissions.values.all { it }` is true for an empty result, so the recording controls open. | A permission request interrupted or cancelled, for which the platform returns no answers | Grant only when every required permission is answered and granted | medium, not executed | RecordingScreen.InterruptedRequestShowsControls | RecordingScreen.OnPermissionResultIntended |

The as-written members model the code: `AudioRecorder.Start` and `RecordingScreen.OnPermissionResult`. The corrected members are `AudioRecorder.StartReleasingOnFailure` and `RecordingScreen.OnPermissionResultIntended`. No other member is defined in terms of either. The recording screen issues its recorder calls as effects, so its properties hold whichever `start` runs.

=== FILE: audio_list.dfy ===
/**
 * The audio list: one card per recording, the remembered uri of the card last
 * played, and what a card's play button does to the playback view model.
 */
module AudioList {

  import opened Wrappers
  import opened Media
  import Playback

  /** What a click asks of the playback view model. */
  datatype Command = TogglePlayPause | PlayMedia(uri: string)

  /** One entry of the list: the empty-list placeholder, or a card with its playing flag. */
  datatype Entry = Placeholder | Card(item: MediaItem, playing: bool)

  /** A card shows as playing when the player plays and the card holds the selected uri. */
  predicate CardIsPlaying(isPlaying: bool, selected: Option<string>, item: MediaItem)
  {
    isPlaying && selected == Some(item.uri)
  }

  /** The list's entries: the placeholder alone for an empty list, else one card per item in order. */
  function Entries(items: seq<MediaItem>, isPlaying: bool, selected: Option<string>): (r: seq<Entry>)
    ensures items == [] ==> r == [Placeholder]
    ensures items != [] ==> |r| == |items| && Placeholder !in r
    ensures items != [] ==> forall i :: 0 <= i < |items| ==> r[i].Card? && r[i].item == items[i]
    ensures forall i :: 0 <= i < |r| && r[i].Card? ==>
      (r[i].playing <==> isPlaying && selected == Some(r[i].item.uri))
  {
    if items == [] then [Placeholder]
    else seq(|items|, i requires 0 <= i < |items| => Card(items[i], CardIsPlaying(isPlaying, selected, items[i])))
  }

  /**
   * `onPlayClick`: the selected card toggles play and pause and keeps the
   * selection; any other card is played and becomes the selection.
   */
  function OnPlayClick(selected: Option<string>, item: MediaItem): (r: (Option<string>, Command))
    ensures r.0 == Some(item.uri)
    ensures r.1 == TogglePlayPause <==> selected == Some(item.uri)
    ensures r.1.PlayMedia? ==> r.1.uri == item.uri
  {
    if selected == Some(item.uri) then (selected, TogglePlayPause)
    else (Some(item.uri), PlayMedia(item.uri))
  }

  /** Runs a command against the playback view model. */
  function Perform(s: Playback.State, c: Command): (s': Playback.State)
    ensures c.PlayMedia? ==> s'.player.media == Some(c.uri) && s'.player.playWhenReady
    ensures c == TogglePlayPause ==> (s'.player.playWhenReady <==> !s.player.isPlaying)
  {
    match c
    case TogglePlayPause => Playback.TogglePlayPause(s)
    case PlayMedia(uri) => Playback.PlayMedia(s, uri)
  }

  /** All cards shown as playing hold one uri, the selected one. */
  lemma PlayingCardsShareSelectedUri(items: seq<MediaItem>, isPlaying: bool, selected: Option<string>, i: int, j: int)
    requires 0 <= i < |items| && 0 <= j < |items|
    requires Entries(items, isPlaying, selected)[i].playing && Entries(items, isPlaying, selected)[j].playing
    ensures isPlaying && selected == Some(items[i].uri) && items[i].uri == items[j].uri
  {
  }

  /** Nothing shows as playing before the first click. */
  lemma NoCardPlaysInitially(items: seq<MediaItem>, isPlaying: bool)
    ensures forall e :: e in Entries(items, isPlaying, None) ==> !(e.Card? && e.playing)
  {
  }

  /**
   * After a click on a card that is not selected, once the player reports playing,
   * the cards shown as playing are exactly those holding the clicked uri.
   */
  lemma ClickOtherThenPlayingHighlightsIt(s: Playback.State, selected: Option<string>,
                                          items: seq<MediaItem>, k: int)
    requires 0 <= k < |items|
    requires selected != Some(items[k].uri)
    ensures var r := OnPlayClick(selected, items[k]);
      var s' := Playback.OnIsPlayingChanged(Perform(s, r.1), true);
      && s'.player.media == Some(items[k].uri)
      && forall i :: 0 <= i < |items| ==>
           (Entries(items, s'.player.isPlaying, r.0)[i].playing <==> items[i].uri == items[k].uri)
  {
  }

  /** A click on the playing, selected card pauses it, and then no card shows as playing. */
  lemma ClickPlayingCardPausesIt(s: Playback.State, items: seq<MediaItem>, k: int)
    requires 0 <= k < |items|
    requires s.player.isPlaying
    ensures var r := OnPlayClick(Some(items[k].uri), items[k]);
      var s' := Perform(s, r.1);
      && r.0 == Some(items[k].uri)
      && !s'.player.playWhenReady
      && forall e :: e in Entries(items, s'.player.isPlaying, r.0) ==> !(e.Card? && e.playing)
  {
  }
}

=== FILE: audio_recorder.dfy ===
/**
 * The audio-recorder wrapper: at most one platform recorder held in a nullable
 * field, started on an output file and stopped on request. Platform recorders are
 * abstract; the wrapper's state keeps every recorder it ever created, so that the
 * model can say which were released.
 */
module AudioRecorder {

  import opened Wrappers

  datatype AudioSource = Mic
  datatype OutputFormat = Mpeg4
  datatype AudioEncoder = Aac

  /**
   * Where a platform recorder is in its life: configured but not started (its
   * prepare or start threw), recording, or released, with whether its recording
   * was finalised by a successful stop.
   */
  datatype Phase = Configured | Recording | Released(finalized: bool)

  datatype PlatformRecorder = PlatformRecorder(
    source: AudioSource,
    format: OutputFormat,
    encoder: AudioEncoder,
    outputPath: string,
    phase: Phase)

  /** The wrapper's field (an index into `created`, `None` for null) and every recorder it created. */
  datatype Recorder = Recorder(field: Option<nat>, created: seq<PlatformRecorder>)

  const Idle: Recorder := Recorder(None, [])

  /** A new wrapper holds nothing and satisfies the invariant. */
  lemma IdleIsValid()
    ensures Valid(Idle) && Idle.field.None?
  {
  }

  /** The field holds an unreleased recorder, and every other recorder has been released. */
  predicate Valid(r: Recorder)
  {
    && (r.field.Some? ==> r.field.value < |r.created| && !r.created[r.field.value].phase.Released?)
    && forall i :: 0 <= i < |r.created| && r.field != Some(i) ==> r.created[i].phase.Released?
  }

  /**
   * `stop`: stop and release the held recorder, release it anyway when its stop
   * throws (the platform's stop throws for a recorder that never started), and
   * clear the field. With nothing held it does nothing.
   */
  function Stop(r: Recorder, stopThrows: bool): (r': Recorder)
    requires Valid(r)
    ensures Valid(r')
    ensures r'.field.None?
    ensures r.field.None? ==> r' == r
    ensures |r'.created| == |r.created|
    ensures r.field.Some? ==>
      var held := r.created[r.field.value];
      r'.created[r.field.value] == held.(phase := Released(held.phase == Recording && !stopThrows))
    ensures forall i :: 0 <= i < |r.created| && r.field != Some(i) ==> r'.created[i] == r.created[i]
  {
    match r.field
    case None => r
    case Some(i) =>
      var held := r.created[i];
      var finalized := held.phase == Recording && !stopThrows;
      Recorder(None, r.created[i := held.(phase := Released(finalized))])
  }

  /** A new platform recorder configured for the output file: microphone, MPEG-4, AAC. */
  function Configure(outputPath: string): (p: PlatformRecorder)
    ensures p.source == Mic && p.format == Mpeg4 && p.encoder == Aac
    ensures p.outputPath == outputPath && p.phase == Configured
  {
    PlatformRecorder(Mic, Mpeg4, Aac, outputPath, Configured)
  }

  /**
   * `start` as written: stop any previous recorder, configure a new one and try to
   * prepare and start it. The failure handler releases and clears the FIELD, which
   * `stop` has already cleared, so it does nothing; the new recorder is assigned
   * to the field afterwards whether or not it started.
   */
  function Start(r: Recorder, outputPath: string, previousStopThrows: bool, startThrows: bool): (r': Recorder)
    requires Valid(r)
    ensures Valid(r')
    ensures |r'.created| == |r.created| + 1
    ensures r'.created[..|r.created|] == Stop(r, previousStopThrows).created
    ensures forall i :: 0 <= i < |r.created| ==> r'.created[i].phase.Released?
    ensures var newest := r'.created[|r.created|];
      && r'.field == Some(|r.created|)
      && newest.source == Mic && newest.format == Mpeg4 && newest.encoder == Aac
      && newest.outputPath == outputPath
      && newest.phase == (if startThrows then Configured else Recording)
  {
    var stopped := Stop(r, previousStopThrows);
    var configured := Configure(outputPath);
    var newest := if startThrows then configured else configured.(phase := Recording);
    Recorder(Some(|stopped.created|), stopped.created + [newest])
  }

  /**
   * A failed start leaves the wrapper holding a recorder that never started and
   * was never released, although the handler's comment says it is released and
   * cleared; the next stop finds it, its stop throws, and it is released unfinalised.
   */
  lemma FailedStartHoldsUnreleasedRecorder(r: Recorder, outputPath: string, previousStopThrows: bool, laterStopThrows: bool)
    requires Valid(r)
    ensures var r' := Start(r, outputPath, previousStopThrows, true);
      && r'.field.Some?
      && r'.created[r'.field.value].phase == Configured
      && Stop(r', laterStopThrows).created[r'.field.value].phase == Released(false)
  {
  }

  /**
   * `start` as the failure handler's comment intends: a recorder whose prepare or
   * start throws is released and the field cleared.
   */
  function StartReleasingOnFailure(r: Recorder, outputPath: string, previousStopThrows: bool, startThrows: bool): (r': Recorder)
    requires Valid(r)
    ensures Valid(r')
    ensures |r'.created| == |r.created| + 1
    ensures r'.created[..|r.created|] == Stop(r, previousStopThrows).created
    ensures forall i :: 0 <= i < |r.created| ==> r'.created[i].phase.Released?
    ensures var newest := r'.created[|r.created|];
      && newest.source == Mic && newest.format == Mpeg4 && newest.encoder == Aac
      && newest.outputPath == outputPath
      && (startThrows ==> r'.field.None? && newest.phase == Released(false))
      && (!startThrows ==> r'.field == Some(|r.created|) && newest.phase == Recording)
  {
    var stopped := Stop(r, previousStopThrows);
    var configured := Configure(outputPath);
    if startThrows then Recorder(None, stopped.created + [configured.(phase := Released(false))])
    else Recorder(Some(|stopped.created|), stopped.created + [configured.(phase := Recording)])
  }

  /** With the intended handler, a failed start leaves nothing held and nothing unreleased. */
  lemma IntendedFailedStartReleasesEverything(r: Recorder, outputPath: string, previousStopThrows: bool)
    requires Valid(r)
    ensures var r' := StartReleasingOnFailure(r, outputPath, previousStopThrows, true);
      && r'.field.None?
      && forall i :: 0 <= i < |r'.created| ==> r'.created[i].phase.Released?
  {
  }

  /** The two versions of `start` agree whenever the new recorder starts. */
  lemma VersionsAgreeOnSuccess(r: Recorder, outputPath: string, previousStopThrows: bool)
    requires Valid(r)
    ensures Start(r, outputPath, previousStopThrows, false)
         == StartReleasingOnFailure(r, outputPath, previousStopThrows, false)
  {
  }

  /** A start followed by a clean stop finalises exactly the recording that was started. */
  lemma StartThenStopFinalizes(r: Recorder, outputPath: string, previousStopThrows: bool)
    requires Valid(r)
    ensures var r' := Stop(Start(r, outputPath, previousStopThrows, false), false);
      && r'.field.None?
      && r'.created[|r.created|].outputPath == outputPath
      && r'.created[|r.created|].phase == Released(true)
  {
  }
}

=== FILE: decimal.dfy ===
/**
 * Decimal digits as the Kotlin standard library reads and writes them:
 * `String.toLongOrNull()` and the rendering of a non-negative number.
 */
module Decimal {

  import opened Wrappers

  const LongMin: int := -0x8000_0000_0000_0000
  const LongMax: int := 0x7FFF_FFFF_FFFF_FFFF

  predicate IsDigit(c: char)
  {
    '0' <= c <= '9'
  }

  predicate AllDigits(s: string)
  {
    forall i :: 0 <= i < |s| ==> IsDigit(s[i])
  }

  function DigitValue(c: char): nat
    requires IsDigit(c)
  {
    c as int - '0' as int
  }

  function DigitChar(d: nat): (c: char)
    requires d < 10
    ensures IsDigit(c) && DigitValue(c) == d
  {
    ('0' as int + d) as char
  }

  /** The value of a string of decimal digits, most significant first. */
  function DigitsValue(s: string): nat
    requires AllDigits(s)
  {
    if s == [] then 0
    else DigitsValue(s[..|s| - 1]) * 10 + DigitValue(s[|s| - 1])
  }

  /** The shortest decimal rendering of a non-negative number. */
  function Render(n: nat): (s: string)
    ensures |s| > 0 && AllDigits(s)
  {
    if n < 10 then [DigitChar(n)]
    else Render(n / 10) + [DigitChar(n % 10)]
  }

  /**
   * `toLongOrNull()`: an optional `+` or `-` followed by one or more digits whose
   * value fits a signed 64-bit integer; anything else gives `None`.
   */
  function ToLongOrNull(s: string): (r: Option<int>)
    ensures r.Some? ==> LongMin <= r.value <= LongMax
    ensures |s| == 0 ==> r.None?
    ensures r.Some? ==> exists i :: 0 <= i < |s| && IsDigit(s[i])
    ensures r.Some? ==> AllDigits(s) || (|s| > 1 && (s[0] == '+' || s[0] == '-') && AllDigits(s[1..]))
  {
    if |s| == 0 then None
    else if s[0] < '0' then
      if |s| == 1 then None
      else if s[0] == '-' && AllDigits(s[1..]) && DigitsValue(s[1..]) <= -LongMin then
        assert IsDigit(s[1..][0]);
        Some(-(DigitsValue(s[1..]) as int))
      else if s[0] == '+' && AllDigits(s[1..]) && DigitsValue(s[1..]) <= LongMax then
        assert IsDigit(s[1..][0]);
        Some(DigitsValue(s[1..]))
      else None
    else if AllDigits(s) && DigitsValue(s) <= LongMax then
      Some(DigitsValue(s))
    else None
  }

  /** Reading back a rendering gives the number rendered. */
  lemma {:induction false} RenderValue(n: nat)
    ensures DigitsValue(Render(n)) == n
  {
    if n >= 10 {
      var s := Render(n / 10) + [DigitChar(n % 10)];
      assert s[..|s| - 1] == Render(n / 10);
      RenderValue(n / 10);
    }
  }

  /** Every non-negative Long survives a rendering and a `toLongOrNull`. */
  lemma ParsesRenderedLong(n: nat)
    requires n <= LongMax
    ensures ToLongOrNull(Render(n)) == Some(n)
  {
    RenderValue(n);
  }

  /** Every negative Long, written with a minus sign, survives a `toLongOrNull`. */
  lemma ParsesRenderedNegativeLong(n: nat)
    requires 0 < n <= -LongMin
    ensures ToLongOrNull("-" + Render(n)) == Some(-(n as int))
  {
    RenderValue(n);
    assert ("-" + Render(n))[1..] == Render(n);
  }

  /**
   * A character that is not a digit, anywhere but in the leading sign position,
   * makes the text unreadable: `"1.5"`, `"12s"`, `"1:30"` and `" 42"` all give `None`.
   */
  lemma MalformedIsNone(s: string, i: int)
    requires 0 <= i < |s| && !IsDigit(s[i])
    requires i > 0 || (s[0] != '+' && s[0] != '-')
    ensures ToLongOrNull(s) == None
  {
    if i > 0 && |s| > 1 {
      assert !IsDigit(s[1..][i - 1]);
    }
  }

  /** The texts named above, read through MalformedIsNone. */
  lemma MalformedExamples()
    ensures ToLongOrNull("1.5") == None && ToLongOrNull("12s") == None
    ensures ToLongOrNull("1:30") == None && ToLongOrNull(" 42") == None
  {
    MalformedIsNone("1.5", 1);
    MalformedIsNone("12s", 2);
    MalformedIsNone("1:30", 1);
    MalformedIsNone(" 42", 0);
  }

  /** Every number above the largest Long reads as `None`, not as a wrapped-around value. */
  lemma OverflowIsNone(n: nat)
    requires n > LongMax
    ensures ToLongOrNull(Render(n)) == None
  {
    RenderValue(n);
  }

  /** Every negative number below the smallest Long reads as `None` as well. */
  lemma NegativeOverflowIsNone(n: nat)
    requires n > -LongMin
    ensures ToLongOrNull("-" + Render(n)) == None
  {
    RenderValue(n);
    assert ("-" + Render(n))[1..] == Render(n);
  }
}

=== FILE: durations.dfy ===
/**
 * The `MM:SS` rendering of a duration in milliseconds shown on every audio card.
 * Hours are discarded and sub-second remainders truncated.
 */
module Durations {

  import opened Decimal

  const MillisPerSecond: int := 1000
  const MillisPerMinute: int := 60000
  const MillisPerHour: int := 3600000

  /** The rendering of every non-positive duration. */
  const Zero: string := "00:00"

  /** `%02d` of a value below one hundred: two ASCII digits, zero-padded. */
  function TwoDigits(n: nat): (s: string)
    requires n < 100
    ensures |s| == 2 && IsDigit(s[0]) && IsDigit(s[1])
  {
    [DigitChar(n / 10), DigitChar(n % 10)]
  }

  /** The value of a two-digit field: the reader's view of TwoDigits. */
  function FieldValue(s: string): nat
    requires |s| == 2 && IsDigit(s[0]) && IsDigit(s[1])
  {
    DigitValue(s[0]) * 10 + DigitValue(s[1])
  }

  lemma TwoDigitsRoundTrip(n: nat)
    requires n < 100
    ensures FieldValue(TwoDigits(n)) == n
  {
  }

  /** `TimeUnit.MILLISECONDS.toSeconds`: division truncating toward zero. */
  function WholeSeconds(millis: int): (r: int)
    ensures millis >= 0 ==> 0 <= r && r * 1000 <= millis < r * 1000 + 1000
    ensures millis < 0 ==> r <= 0 && r * 1000 - 1000 < millis <= r * 1000
  {
    if millis >= 0 then millis / MillisPerSecond else -((-millis) / MillisPerSecond)
  }

  /** `TimeUnit.MILLISECONDS.toMinutes`: division truncating toward zero. */
  function WholeMinutes(millis: int): (r: int)
    ensures millis >= 0 ==> 0 <= r && r * 60000 <= millis < r * 60000 + 60000
    ensures millis < 0 ==> r <= 0 && r * 60000 - 60000 < millis <= r * 60000
  {
    if millis >= 0 then millis / MillisPerMinute else -((-millis) / MillisPerMinute)
  }

  /** A well-formed clock face: two digits, a colon, two digits, each field below 60. */
  predicate IsClockFace(s: string)
  {
    && |s| == 5
    && IsDigit(s[0]) && IsDigit(s[1]) && s[2] == ':' && IsDigit(s[3]) && IsDigit(s[4])
    && FieldValue(s[0..2]) < 60 && FieldValue(s[3..5]) < 60
  }

  /** The minutes field of a clock face. */
  function Minutes(s: string): nat
    requires IsClockFace(s)
  {
    FieldValue(s[0..2])
  }

  /** The seconds field of a clock face. */
  function Seconds(s: string): nat
    requires IsClockFace(s)
  {
    FieldValue(s[3..5])
  }

  /** `formatDuration`: `"00:00"` for non-positive input, else minutes-within-hour and seconds-within-minute. */
  function FormatDuration(millis: int): (s: string)
    ensures IsClockFace(s)
    ensures millis <= 0 ==> s == Zero
    ensures millis > 0 ==> Minutes(s) == WholeMinutes(millis) % 60
    ensures millis > 0 ==> Seconds(s) == WholeSeconds(millis) % 60
  {
    if millis <= 0 then Zero
    else
      var s := TwoDigits(WholeMinutes(millis) % 60) + ":" + TwoDigits(WholeSeconds(millis) % 60);
      assert s[0..2] == TwoDigits(WholeMinutes(millis) % 60);
      assert s[3..5] == TwoDigits(WholeSeconds(millis) % 60);
      s
  }

  /** Two clock faces with the same fields are the same string. */
  lemma ClockFaceDeterminedByFields(a: string, b: string)
    requires IsClockFace(a) && IsClockFace(b)
    requires Minutes(a) == Minutes(b) && Seconds(a) == Seconds(b)
    ensures a == b
  {
    assert a[0] == b[0] && a[1] == b[1] && a[3] == b[3] && a[4] == b[4];
  }

  /** Adding a whole hour to a positive duration does not change its rendering. */
  lemma HoursAreDropped(millis: int)
    requires millis > 0
    ensures FormatDuration(millis + MillisPerHour) == FormatDuration(millis)
  {
    var m := millis + MillisPerHour;
    HourShift(millis);
    assert WholeMinutes(m) % 60 == WholeMinutes(millis) % 60;
    assert WholeSeconds(m) % 60 == WholeSeconds(millis) % 60;
    ClockFaceDeterminedByFields(FormatDuration(m), FormatDuration(millis));
  }

  /** One hour is exactly sixty whole minutes and 3600 whole seconds. */
  lemma HourShift(millis: int)
    requires millis >= 0
    ensures WholeMinutes(millis + MillisPerHour) == WholeMinutes(millis) + 60
    ensures WholeSeconds(millis + MillisPerHour) == WholeSeconds(millis) + 3600
  {
    var q := millis / MillisPerMinute;
    var r := millis % MillisPerMinute;
    assert millis == q * MillisPerMinute + r;
    assert millis + MillisPerHour == (q + 60) * MillisPerMinute + r;
    var q' := millis / MillisPerSecond;
    var r' := millis % MillisPerSecond;
    assert millis + MillisPerHour == (q' + 3600) * MillisPerSecond + r';
  }

  /** Every whole number of hours, one or more, renders as `"00:00"`. */
  lemma {:induction false} WholeHoursRenderZero(hours: nat)
    requires hours >= 1
    ensures FormatDuration(hours * MillisPerHour) == Zero
  {
    if hours == 1 {
      assert FormatDuration(MillisPerHour) == Zero;
    } else {
      WholeHoursRenderZero(hours - 1);
      HoursAreDropped((hours - 1) * MillisPerHour);
    }
  }

  /** Sub-second durations render as `"00:00"`. */
  lemma SubSecondRendersZero(millis: int)
    requires millis < MillisPerSecond
    ensures FormatDuration(millis) == Zero
  {
    if millis > 0 {
      ClockFaceDeterminedByFields(FormatDuration(millis), Zero);
    }
  }

  /** The rendering depends only on the whole-second count, for every pair of inputs. */
  lemma SameSecondsSameRendering(a: int, b: int)
    requires WholeSeconds(a) == WholeSeconds(b)
    ensures FormatDuration(a) == FormatDuration(b)
  {
    if a > 0 && b > 0 {
      assert WholeMinutes(a) == WholeSeconds(a) / 60;
      assert WholeMinutes(b) == WholeSeconds(b) / 60;
      ClockFaceDeterminedByFields(FormatDuration(a), FormatDuration(b));
    } else if a > 0 {
      SubSecondRendersZero(a);
    } else if b > 0 {
      SubSecondRendersZero(b);
    }
  }

  /** Every clock face below one hour is reached, by the duration it names. */
  lemma EveryClockFaceReached(minutes: nat, seconds: nat)
    requires minutes < 60 && seconds < 60
    ensures var s := FormatDuration(minutes * MillisPerMinute + seconds * MillisPerSecond);
      Minutes(s) == minutes && Seconds(s) == seconds
  {
    WholeUnitsOfClockFace(minutes, seconds);
  }

  /** The duration a clock face names holds exactly its minutes and its seconds. */
  lemma WholeUnitsOfClockFace(minutes: nat, seconds: nat)
    requires minutes < 60 && seconds < 60
    ensures var m := minutes * MillisPerMinute + seconds * MillisPerSecond;
      WholeSeconds(m) == minutes * 60 + seconds && WholeMinutes(m) == minutes
  {
    var m := minutes * MillisPerMinute + seconds * MillisPerSecond;
    var k := minutes * 60 + seconds;
    assert m == k * 1000 == minutes * 60000 + seconds * 1000;
    var ws := WholeSeconds(m);
    assert ws * 1000 <= k * 1000 < ws * 1000 + 1000;
    var wm := WholeMinutes(m);
    assert wm * 60000 <= m < wm * 60000 + 60000;
  }
}

=== FILE: media.dfy ===
/** The catalog record: one captured audio recording, photo or video. */
module Media {

  import opened Wrappers

  /** The three kinds of media; a kind picks the storage directory, extension and query. */
  datatype MediaType = Audio | Image | Video

  /** The id a freshly built record carries: the store assigns the real one on insert. */
  const DefaultId: int := 0

  /**
   * An immutable row of the `media_items` table. `id` is the primary key; `date`
   * and `duration` are milliseconds. Equality is value equality over all six fields.
   */
  datatype MediaItem = MediaItem(
    id: int,
    uri: string,
    name: string,
    date: int,
    duration: int,
    kind: MediaType)

  /** The record as the application builds it, before the store has assigned an id. */
  function NewItem(uri: string, name: string, date: int, duration: int, kind: MediaType): (item: MediaItem)
    ensures item.id == DefaultId
    ensures item.uri == uri && item.name == name && item.kind == kind
    ensures item.date == date && item.duration == duration
  {
    MediaItem(DefaultId, uri, name, date, duration, kind)
  }

  /** The enum constant's `name`, as used in file names. */
  function KindName(t: MediaType): (s: string)
    ensures |s| == 5
  {
    match t
    case Audio => "AUDIO"
    case Image => "IMAGE"
    case Video => "VIDEO"
  }

  /** Inverse of KindName. */
  function KindOfName(s: string): Option<MediaType>
  {
    if s == "AUDIO" then Some(Audio)
    else if s == "IMAGE" then Some(Image)
    else if s == "VIDEO" then Some(Video)
    else None
  }

  /** The kind names tell the three kinds apart. */
  lemma KindNamesRoundTrip(t: MediaType)
    ensures KindOfName(KindName(t)) == Some(t)
  {
  }
}

=== FILE: media_catalog.dfy ===
/**
 * Building and inserting catalog records from captured content (the media view
 * model). The content resolver, the metadata retriever, the file provider and the
 * clock are abstract inputs: each input says what the platform call returned or
 * that it threw.
 */
module MediaCatalog {

  import opened Wrappers
  import opened Media
  import opened Decimal
  import opened MediaDao
  import MediaRepository

  /** The display-name column of an openable document. */
  const DisplayNameColumn: string := "_display_name"

  /** The name a record gets when none can be read. */
  const UnknownName: string := "Unknown"

  /** The duration a record gets when none can be read. */
  const UnknownDuration: int := 0

  /** One row of a content-resolver answer: column name to value, `None` for SQL NULL. */
  type Row = map<string, Option<string>>

  /** What the content-resolver query did: threw, returned no cursor, or returned rows. */
  datatype NameLookup = QueryThrows | NoCursor | Cursor(rows: seq<Row>)

  /**
   * What the metadata retriever did: some step (creation, data source, extraction,
   * release) threw, or the duration key was read (`None` when absent).
   */
  datatype DurationLookup = RetrieverThrows | Extracted(value: Option<string>)

  datatype Metadata = Metadata(name: string, duration: int)

  /**
   * The name half of `getMetadataFromUri`. A NULL display name assigned to the
   * non-null local throws, and so does a failing query.
   */
  function NameOf(q: NameLookup): (r: Attempt<string>)
    ensures r.Threw? <==>
      || q.QueryThrows?
      || (q.Cursor? && |q.rows| > 0 && DisplayNameColumn in q.rows[0] && q.rows[0][DisplayNameColumn].None?)
    ensures q.NoCursor? || (q.Cursor? && (|q.rows| == 0 || DisplayNameColumn !in q.rows[0])) ==>
      r == Ok(UnknownName)
    ensures q.Cursor? && |q.rows| > 0 && DisplayNameColumn in q.rows[0] && q.rows[0][DisplayNameColumn].Some? ==>
      r == Ok(q.rows[0][DisplayNameColumn].value)
    ensures r.Ok? && r.value != UnknownName ==>
      && q.Cursor? && |q.rows| > 0 && DisplayNameColumn in q.rows[0]
      && q.rows[0][DisplayNameColumn] == Some(r.value)
  {
    match q
    case QueryThrows => Threw
    case NoCursor => Ok(UnknownName)
    case Cursor(rows) =>
      if |rows| == 0 || DisplayNameColumn !in rows[0] then Ok(UnknownName)
      else
        match rows[0][DisplayNameColumn]
        case None => Threw
        case Some(name) => Ok(name)
  }

  /** The duration half of `getMetadataFromUri`: never throws, falls back to 0. */
  function DurationOf(d: DurationLookup): (r: int)
    ensures LongMin <= r <= LongMax
    ensures d.RetrieverThrows? || d.value.None? ==> r == UnknownDuration
    ensures d.Extracted? && d.value.Some? && ToLongOrNull(d.value.value).Some? ==>
      r == ToLongOrNull(d.value.value).value
  {
    match d
    case RetrieverThrows => UnknownDuration
    case Extracted(None) => UnknownDuration
    case Extracted(Some(text)) => ToLongOrNull(text).GetOr(UnknownDuration)
  }

  /** `getMetadataFromUri`: the name and the duration, or the exception of the name query. */
  function GetMetadata(q: NameLookup, d: DurationLookup): (r: Attempt<Metadata>)
    ensures r.Threw? <==> NameOf(q).Threw?
    ensures r.Ok? ==> r.value.name == NameOf(q).value && r.value.duration == DurationOf(d)
  {
    match NameOf(q)
    case Threw => Threw
    case Ok(name) => Ok(Metadata(name, DurationOf(d)))
  }

  /** A duration the retriever reports as a rendered number is read back exactly. */
  lemma RenderedDurationIsRead(n: nat, q: NameLookup)
    requires n <= LongMax
    requires NameOf(q).Ok?
    ensures GetMetadata(q, Extracted(Some(Render(n)))).value.duration == n
  {
    ParsesRenderedLong(n);
  }

  /** A duration text that is not a number gives 0 and leaves the name as read. */
  lemma UnreadableDurationIsZero(q: NameLookup, text: string)
    requires NameOf(q).Ok?
    requires ToLongOrNull(text).None?
    ensures GetMetadata(q, Extracted(Some(text))) == Ok(Metadata(NameOf(q).value, 0))
  {
  }

  /**
   * Duration text with a character that is not a digit, other than a leading sign,
   * gives 0: a fractional, suffixed, clock-style or padded value is not read.
   */
  lemma MalformedDurationIsZero(q: NameLookup, text: string, i: int)
    requires NameOf(q).Ok?
    requires 0 <= i < |text| && !IsDigit(text[i])
    requires i > 0 || (text[0] != '+' && text[0] != '-')
    ensures GetMetadata(q, Extracted(Some(text))) == Ok(Metadata(NameOf(q).value, 0))
  {
    MalformedIsNone(text, i);
  }

  /**
   * `insertMediaFromUri`: on success one new row with a fresh id, the caller's uri
   * and kind, the clock's time, and the metadata read; on any exception (from the
   * name query or from the store) the table is left as it was.
   */
  function InsertMediaFromUri(db: Db, uri: string, kind: MediaType, now: int,
                              q: NameLookup, d: DurationLookup, storeThrows: bool): (db': Db)
    requires Valid(db)
    ensures Valid(db')
    ensures NameOf(q).Threw? || storeThrows ==> db' == db
    ensures NameOf(q).Ok? && !storeThrows ==>
      var id := db.lastId + 1;
      && id !in db.rows
      && db'.rows.Keys == db.rows.Keys + {id}
      && db'.rows[id] == MediaItem(id, uri, NameOf(q).value, now, DurationOf(d), kind)
      && forall k :: k in db.rows ==> db'.rows[k] == db.rows[k]
  {
    match GetMetadata(q, d)
    case Threw => db
    case Ok(m) =>
      if storeThrows then db
      else MediaRepository.InsertMedia(db, NewItem(uri, m.name, now, m.duration, kind))
  }

  /** The table grows by exactly one row on success, and not at all otherwise. */
  lemma InsertFromUriRowCount(db: Db, uri: string, kind: MediaType, now: int,
                              q: NameLookup, d: DurationLookup, storeThrows: bool)
    requires Valid(db)
    ensures var db' := InsertMediaFromUri(db, uri, kind, now, q, d, storeThrows);
      |db'.rows| == if NameOf(q).Ok? && !storeThrows then |db.rows| + 1 else |db.rows|
  {
    if NameOf(q).Ok? && !storeThrows {
      FreshKeyAddsOneRow(db, NewItem(uri, NameOf(q).value, now, DurationOf(d), kind));
    }
  }

  /**
   * `insertMediaFromFile`: the file provider's content uri (`None` when it throws),
   * then exactly what `insertMediaFromUri` does with it.
   */
  function InsertMediaFromFile(db: Db, contentUri: Option<string>, kind: MediaType, now: int,
                               q: NameLookup, d: DurationLookup, storeThrows: bool): (db': Db)
    requires Valid(db)
    ensures Valid(db')
    ensures contentUri.None? ==> db' == db
    ensures contentUri.Some? ==> db' == InsertMediaFromUri(db, contentUri.value, kind, now, q, d, storeThrows)
  {
    match contentUri
    case None => db
    case Some(uri) => InsertMediaFromUri(db, uri, kind, now, q, d, storeThrows)
  }
}

=== FILE: media_dao.dfy ===
/**
 * The data-access contract of the `media_items` table: insert with REPLACE on the
 * primary key, and the query that filters by kind and orders by `date DESC`.
 * The relational engine itself is abstract: the table is a map from primary key to
 * row, and the order in which the engine visits rows is an input (`scan`), so that
 * the order among rows with equal dates is left to the engine as in SQL.
 */
module MediaDao {

  import opened Media

  /**
   * The table: rows keyed by primary key, and the AUTOINCREMENT high-water mark
   * (the largest id ever stored), from which fresh ids are drawn.
   */
  datatype Db = Db(rows: map<int, MediaItem>, lastId: int)

  /** The empty table. */
  const Empty: Db := Db(map[], 0)

  /** Every row is stored under its own id, and no id exceeds the high-water mark. */
  predicate Valid(db: Db)
  {
    && db.lastId >= 0
    && forall k :: k in db.rows ==> db.rows[k].id == k && k <= db.lastId
  }

  lemma EmptyIsValid()
    ensures Valid(Empty) && |Empty.rows| == 0
  {
  }

  /**
   * The id an insert stores its row under: the record's own id, or for the default
   * id 0 (bound as NULL to an auto-generated key) the next id past the high-water mark.
   */
  function AssignedId(db: Db, item: MediaItem): (id: int)
    ensures item.id != DefaultId ==> id == item.id
    ensures item.id == DefaultId ==> id > db.lastId
    ensures Valid(db) && item.id == DefaultId ==> id > 0 && id !in db.rows
  {
    if item.id == DefaultId then db.lastId + 1 else item.id
  }

  /** `insertMedia` with `OnConflictStrategy.REPLACE`. */
  function Insert(db: Db, item: MediaItem): (db': Db)
    requires Valid(db)
    ensures Valid(db')
    ensures item.id != DefaultId ==> AssignedId(db, item) == item.id
    ensures item.id == DefaultId ==> AssignedId(db, item) > 0 && AssignedId(db, item) !in db.rows
    ensures var id := AssignedId(db, item);
      && db'.rows.Keys == db.rows.Keys + {id}
      && db'.rows[id] == item.(id := id)
      && forall k :: k in db.rows && k != id ==> db'.rows[k] == db.rows[k]
  {
    var id := AssignedId(db, item);
    Db(db.rows[id := item.(id := id)], if id > db.lastId then id else db.lastId)
  }

  /** REPLACE on an existing key overwrites that row: the row count is unchanged. */
  lemma ReplaceKeepsRowCount(db: Db, item: MediaItem)
    requires Valid(db)
    requires item.id != DefaultId && item.id in db.rows
    ensures |Insert(db, item).rows| == |db.rows|
    ensures Insert(db, item).rows[item.id] == item
  {
    assert Insert(db, item).rows.Keys == db.rows.Keys;
  }

  /** An insert under a key not yet stored, including every auto-generated one, adds one row. */
  lemma FreshKeyAddsOneRow(db: Db, item: MediaItem)
    requires Valid(db)
    requires item.id == DefaultId || item.id !in db.rows
    ensures |Insert(db, item).rows| == |db.rows| + 1
  {
    var id := AssignedId(db, item);
    assert id !in db.rows.Keys;
    assert Insert(db, item).rows.Keys == db.rows.Keys + {id};
  }

  /** The rows of one kind, as a set: what the query must return, in some order. */
  function OfKind(db: Db, t: MediaType): set<MediaItem>
  {
    set k | k in db.rows && db.rows[k].kind == t :: db.rows[k]
  }

  /** In a valid table, a row of kind `t` is one stored under its own id. */
  lemma InKindIffStoredUnderOwnId(db: Db, t: MediaType, x: MediaItem)
    requires Valid(db)
    ensures x in OfKind(db, t) <==> x.id in db.rows && db.rows[x.id] == x && x.kind == t
  {
    if x in OfKind(db, t) {
      var k :| k in db.rows && db.rows[k].kind == t && db.rows[k] == x;
      assert db.rows[k].id == k;
    }
    if x.id in db.rows && db.rows[x.id] == x && x.kind == t {
      assert db.rows[x.id] in OfKind(db, t);
    }
  }

  /** A listing of the table's keys in the order the engine visits them: each key exactly once. */
  predicate IsScanOf(scan: seq<int>, db: Db)
  {
    && (forall i, j :: 0 <= i < j < |scan| ==> scan[i] != scan[j])
    && (forall i :: 0 <= i < |scan| ==> scan[i] in db.rows)
    && (forall k :: k in db.rows ==> k in scan)
  }

  predicate Distinct<T(==)>(s: seq<T>)
  {
    forall i, j :: 0 <= i < j < |s| ==> s[i] != s[j]
  }

  /** `ORDER BY date DESC`: dates never increase along the sequence. */
  predicate SortedByDate(s: seq<MediaItem>)
  {
    forall i, j :: 0 <= i < j < |s| ==> s[i].date >= s[j].date
  }

  /** `WHERE type = :type`, visiting rows in scan order. */
  function Select(db: Db, t: MediaType, scan: seq<int>): (r: seq<MediaItem>)
    requires Valid(db)
    requires Distinct(scan)
    requires forall i :: 0 <= i < |scan| ==> scan[i] in db.rows
    ensures Distinct(r)
    ensures forall x :: x in r <==> x.id in scan && x.id in db.rows && db.rows[x.id] == x && x.kind == t
  {
    if scan == [] then []
    else
      assert scan == [scan[0]] + scan[1..];
      assert scan[0] in db.rows;
      var rest := Select(db, t, scan[1..]);
      var row := db.rows[scan[0]];
      assert row.id == scan[0];
      if row.kind == t then
        assert row !in rest by {
          assert scan[0] !in scan[1..];
        }
        [row] + rest
      else rest
  }

  /** Places `x` before the first row that is not newer than it. */
  function InsertByDate(x: MediaItem, s: seq<MediaItem>): (r: seq<MediaItem>)
    requires SortedByDate(s)
    ensures SortedByDate(r)
    ensures multiset(r) == multiset(s) + multiset{x}
  {
    if s == [] || x.date >= s[0].date then [x] + s
    else
      var rest := InsertByDate(x, s[1..]);
      assert s == [s[0]] + s[1..];
      BoundCarriesToPermutation(s[0].date, s[1..] + [x], rest);
      PrependNewest(s[0], rest);
      [s[0]] + rest
  }

  /** A row no older than every row of a sorted sequence can be put in front of it. */
  lemma PrependNewest(h: MediaItem, s: seq<MediaItem>)
    requires SortedByDate(s)
    requires forall i :: 0 <= i < |s| ==> h.date >= s[i].date
    ensures SortedByDate([h] + s)
  {
    var r := [h] + s;
    forall i, j | 0 <= i < j < |r|
      ensures r[i].date >= r[j].date
    {
      assert r[j] == s[j - 1];
      if i > 0 {
        assert r[i] == s[i - 1];
      }
    }
  }

  /** An upper bound on the dates of a sequence bounds every permutation of it. */
  lemma BoundCarriesToPermutation(d: int, s: seq<MediaItem>, p: seq<MediaItem>)
    requires forall i :: 0 <= i < |s| ==> d >= s[i].date
    requires multiset(p) == multiset(s)
    ensures forall i :: 0 <= i < |p| ==> d >= p[i].date
  {
    forall i | 0 <= i < |p|
      ensures d >= p[i].date
    {
      assert p[i] in multiset(s);
      var j :| 0 <= j < |s| && s[j] == p[i];
    }
  }

  /** An insertion sort by date, newest first. */
  function SortByDate(s: seq<MediaItem>): (r: seq<MediaItem>)
    ensures SortedByDate(r)
    ensures multiset(r) == multiset(s)
  {
    if s == [] then []
    else
      assert s == [s[0]] + s[1..];
      InsertByDate(s[0], SortByDate(s[1..]))
  }

  /** A duplicate-free sequence with the same members as a set is a permutation of it. */
  lemma {:induction false} DistinctSeqIsPermutationOfSet<T>(s: seq<T>, S: set<T>)
    requires Distinct(s)
    requires forall x :: x in s <==> x in S
    ensures multiset(s) == multiset(S)
    decreases |s|
  {
    if s == [] {
      assert S == {};
    } else {
      var x := s[0];
      assert x !in s[1..];
      assert s == [x] + s[1..];
      DistinctSeqIsPermutationOfSet(s[1..], S - {x});
      assert S == (S - {x}) + {x};
      assert multiset(S) == multiset(S - {x}) + multiset{x};
    }
  }

  /**
   * `getMediaByType`: the stored rows of kind `t`, each exactly once, newest first.
   * The order among equal dates comes from the engine's scan.
   */
  function GetMediaByType(db: Db, t: MediaType, scan: seq<int>): (r: seq<MediaItem>)
    requires Valid(db)
    requires IsScanOf(scan, db)
    ensures forall i :: 0 <= i < |r| ==> r[i].kind == t
    ensures multiset(r) == multiset(OfKind(db, t))
    ensures SortedByDate(r)
  {
    var selected := Select(db, t, scan);
    forall x
      ensures x in selected <==> x in OfKind(db, t)
    {
      InKindIffStoredUnderOwnId(db, t, x);
    }
    DistinctSeqIsPermutationOfSet(selected, OfKind(db, t));
    var r := SortByDate(selected);
    assert forall i :: 0 <= i < |r| ==> r[i] in multiset(selected);
    r
  }

  function Dates(s: seq<MediaItem>): (d: seq<int>)
    ensures |d| == |s|
    ensures forall i :: 0 <= i < |s| ==> d[i] == s[i].date
  {
    seq(|s|, i requires 0 <= i < |s| => s[i].date)
  }

  /** Dropping one row keeps a sequence sorted. */
  lemma RemoveKeepsSorted(a: seq<MediaItem>, i: int)
    requires SortedByDate(a)
    requires 0 <= i < |a|
    ensures SortedByDate(a[..i] + a[i + 1..])
  {
    var a' := a[..i] + a[i + 1..];
    forall p, q | 0 <= p < q < |a'|
      ensures a'[p].date >= a'[q].date
    {
      var p' := if p < i then p else p + 1;
      var q' := if q < i then q else q + 1;
      assert a'[p] == a[p'] && a'[q] == a[q'];
    }
  }

  /** Two non-empty date-sorted permutations of each other start with the same date. */
  lemma NewestDatesAgree(a: seq<MediaItem>, b: seq<MediaItem>)
    requires multiset(a) == multiset(b)
    requires SortedByDate(a) && SortedByDate(b)
    requires |b| > 0
    ensures |a| > 0 && a[0].date == b[0].date
  {
    assert b[0] in multiset(a);
    var i :| 0 <= i < |a| && a[i] == b[0];
    assert a[0] in multiset(b);
    var j :| 0 <= j < |b| && b[j] == a[0];
  }

  /** Removing the same row from two permutations of each other leaves permutations. */
  lemma RemoveMatchingRow(a: seq<MediaItem>, b: seq<MediaItem>, i: int)
    requires multiset(a) == multiset(b)
    requires |b| > 0 && 0 <= i < |a| && a[i] == b[0]
    ensures multiset(a[..i] + a[i + 1..]) == multiset(b[1..])
  {
    assert a == a[..i] + [a[i]] + a[i + 1..];
    assert b == [b[0]] + b[1..];
    assert multiset(a) == multiset(a[..i]) + multiset{a[i]} + multiset(a[i + 1..]);
    assert multiset(b) == multiset{b[0]} + multiset(b[1..]);
    assert multiset(a[..i] + a[i + 1..]) == multiset(a[..i]) + multiset(a[i + 1..]);
    assert multiset(a[..i] + a[i + 1..]) == multiset(a) - multiset{b[0]};
    assert multiset(b[1..]) == multiset(b) - multiset{b[0]};
  }

  /**
   * In a sorted sequence whose row `i` has the newest date, moving that row to the
   * front leaves the list of dates as it was.
   */
  lemma MoveNewestToFront(a: seq<MediaItem>, i: int)
    requires SortedByDate(a)
    requires 0 <= i < |a| && a[i].date == a[0].date
    ensures Dates(a) == [a[i].date] + Dates(a[..i] + a[i + 1..])
  {
    var a' := a[..i] + a[i + 1..];
    var d := a[0].date;
    var lhs := Dates(a);
    var rhs := [d] + Dates(a');
    assert |lhs| == |rhs|;
    forall k | 0 <= k < |a|
      ensures lhs[k] == rhs[k]
    {
      if 0 < k <= i {
        assert a[k].date == d && a[k - 1].date == d;
        assert a'[k - 1] == a[k - 1];
      } else if k > i {
        assert a'[k - 1] == a[k];
      }
    }
  }

  /** Two date-sorted permutations of each other list the same dates in the same positions. */
  lemma {:induction false} SortedPermutationsAgreeOnDates(a: seq<MediaItem>, b: seq<MediaItem>)
    requires multiset(a) == multiset(b)
    requires SortedByDate(a) && SortedByDate(b)
    ensures Dates(a) == Dates(b)
    decreases |b|
  {
    if b == [] {
      assert |a| == |multiset(a)| == 0;
    } else {
      NewestDatesAgree(a, b);
      assert b[0] in multiset(a);
      var i :| 0 <= i < |a| && a[i] == b[0];
      var a' := a[..i] + a[i + 1..];
      RemoveMatchingRow(a, b, i);
      RemoveKeepsSorted(a, i);
      RemoveKeepsSorted(b, 0);
      assert b[..0] + b[1..] == b[1..];
      SortedPermutationsAgreeOnDates(a', b[1..]);
      MoveNewestToFront(a, i);
      DatesOfHead(b);
    }
  }

  /** The dates of a non-empty sequence: its head's date, then the dates of its tail. */
  lemma DatesOfHead(b: seq<MediaItem>)
    requires |b| > 0
    ensures Dates(b) == [b[0].date] + Dates(b[1..])
  {
    assert forall k :: 0 < k < |b| ==> Dates(b)[k] == Dates(b[1..])[k - 1];
  }

  /**
   * Any two scans of the same table give results that differ at most in the order
   * of rows with equal dates.
   */
  lemma QueryFixedUpToEqualDates(db: Db, t: MediaType, scan1: seq<int>, scan2: seq<int>)
    requires Valid(db)
    requires IsScanOf(scan1, db) && IsScanOf(scan2, db)
    ensures multiset(GetMediaByType(db, t, scan1)) == multiset(GetMediaByType(db, t, scan2))
    ensures Dates(GetMediaByType(db, t, scan1)) == Dates(GetMediaByType(db, t, scan2))
  {
    SortedPermutationsAgreeOnDates(GetMediaByType(db, t, scan1), GetMediaByType(db, t, scan2));
  }
}

=== FILE: media_repository.dfy ===
/** The repository: one getter per kind and an insert, each delegating to the DAO. */
module MediaRepository {

  import opened Media
  import opened MediaDao

  /** `getAllAudio`. */
  function GetAllAudio(db: Db, scan: seq<int>): (r: seq<MediaItem>)
    requires Valid(db) && IsScanOf(scan, db)
    ensures r == GetMediaByType(db, Audio, scan)
    ensures forall x :: x in r <==> x in OfKind(db, Audio)
  {
    var r := GetMediaByType(db, Audio, scan);
    assert forall x :: x in r <==> x in multiset(r);
    r
  }

  /** `getAllImages`. */
  function GetAllImages(db: Db, scan: seq<int>): (r: seq<MediaItem>)
    requires Valid(db) && IsScanOf(scan, db)
    ensures r == GetMediaByType(db, Image, scan)
    ensures forall x :: x in r <==> x in OfKind(db, Image)
  {
    var r := GetMediaByType(db, Image, scan);
    assert forall x :: x in r <==> x in multiset(r);
    r
  }

  /** `getAllVideos`. */
  function GetAllVideos(db: Db, scan: seq<int>): (r: seq<MediaItem>)
    requires Valid(db) && IsScanOf(scan, db)
    ensures r == GetMediaByType(db, Video, scan)
    ensures forall x :: x in r <==> x in OfKind(db, Video)
  {
    var r := GetMediaByType(db, Video, scan);
    assert forall x :: x in r <==> x in multiset(r);
    r
  }

  /** `insertMedia`: the record reaches the DAO unchanged. */
  function InsertMedia(db: Db, item: MediaItem): (db': Db)
    requires Valid(db)
    ensures db' == MediaDao.Insert(db, item)
    ensures var id := AssignedId(db, item); db'.rows[id] == item.(id := id)
  {
    MediaDao.Insert(db, item)
  }

  /** Every stored row, as a set. */
  function AllRows(db: Db): set<MediaItem>
  {
    set k | k in db.rows :: db.rows[k]
  }

  lemma DisjointUnionMultiset<T>(a: set<T>, b: set<T>)
    requires a !! b
    ensures multiset(a + b) == multiset(a) + multiset(b)
  {
    forall x
      ensures multiset(a + b)[x] == (multiset(a) + multiset(b))[x]
    {
      if x in a {
        assert x !in b;
      }
    }
  }

  /** Every row has exactly one kind, so the kinds split the table. */
  lemma KindsSplitRows(db: Db)
    requires Valid(db)
    ensures OfKind(db, Audio) !! OfKind(db, Image)
    ensures OfKind(db, Audio) !! OfKind(db, Video)
    ensures OfKind(db, Image) !! OfKind(db, Video)
    ensures OfKind(db, Audio) + OfKind(db, Image) + OfKind(db, Video) == AllRows(db)
  {
    forall x | x in AllRows(db)
      ensures x in OfKind(db, x.kind)
    {
      var k :| k in db.rows && db.rows[k] == x;
      assert db.rows[k].kind == x.kind;
    }
    forall t: MediaType, x | x in OfKind(db, t)
      ensures x.kind == t && x in AllRows(db)
    {
      var k :| k in db.rows && db.rows[k].kind == t && db.rows[k] == x;
    }
  }

  /**
   * The three lists share no row, and together they hold every stored row exactly once.
   */
  lemma ListsPartitionTheStore(db: Db, scan: seq<int>)
    requires Valid(db) && IsScanOf(scan, db)
    ensures forall x :: x in GetAllAudio(db, scan) ==> x !in GetAllImages(db, scan) && x !in GetAllVideos(db, scan)
    ensures forall x :: x in GetAllImages(db, scan) ==> x !in GetAllVideos(db, scan)
    ensures multiset(GetAllAudio(db, scan)) + multiset(GetAllImages(db, scan)) + multiset(GetAllVideos(db, scan))
         == multiset(AllRows(db))
  {
    KindsSplitRows(db);
    var a, i, v := OfKind(db, Audio), OfKind(db, Image), OfKind(db, Video);
    DisjointUnionMultiset(a, i);
    DisjointUnionMultiset(a + i, v);
  }
}

=== FILE: playback.dfy ===
/**
 * The playback view model: a media player, the accelerometer that can drive the
 * volume by tilting the device, and the persisted volume. The player and the
 * sensor service are abstract: the state records what the view model asked of
 * them, and the player's own reports (playing or not) arrive as events.
 */
module Playback {

  import opened Wrappers
  import opened Settings

  /** The sensor-type code of an accelerometer. */
  const TypeAccelerometer: int := 1

  /** Tilt along the device's y axis, in m/s^2, that maps to silence and to full volume. */
  const TiltLow: real := -5.0
  const TiltHigh: real := 5.0

  /**
   * What the view model has asked of the player: the media item, whether it
   * should play, its volume, whether it has been released; and `isPlaying`, the
   * player's own report.
   */
  datatype Player = Player(
    media: Option<string>,
    playWhenReady: bool,
    isPlaying: bool,
    volume: real,
    released: bool)

  datatype State = State(
    player: Player,
    accelerometerEnabled: bool,
    hasAccelerometer: bool,
    listenerRegistered: bool,
    prefs: Preferences)

  /** A sensor event: absent, or a reading of some sensor type with its three axes. */
  datatype SensorEvent = NoEvent | Reading(sensorType: int, x: real, y: real, z: real)

  /** The listener is registered only while the toggle is on and a sensor exists; volumes stay in range. */
  predicate Valid(s: State)
  {
    && (s.listenerRegistered ==> s.accelerometerEnabled && s.hasAccelerometer)
    && 0.0 <= s.player.volume <= 1.0
    && WellFormed(s.prefs)
  }

  /**
   * The volume the view model observes: the store's value once it has emitted
   * (`None` before the first emission), else the default.
   */
  function CurrentVolume(emitted: Option<Preferences>): (v: real)
    ensures emitted.None? ==> v == DefaultVolume
    ensures emitted.Some? && VolumeKey !in emitted.value ==> v == DefaultVolume
    ensures emitted.Some? && VolumeKey in emitted.value ==> v == emitted.value[VolumeKey]
    ensures emitted.Some? && WellFormed(emitted.value) ==> 0.0 <= v <= 1.0
  {
    match emitted
    case None => DefaultVolume
    case Some(p) => UserVolume(p)
  }

  /**
   * A fresh view model: a new player with nothing loaded, the toggle off, and the
   * player's volume set from the observed volume, which is the default until the
   * store emits.
   */
  function Init(hasAccelerometer: bool, prefs: Preferences): (s: State)
    requires WellFormed(prefs)
    ensures Valid(s)
    ensures !s.accelerometerEnabled && !s.listenerRegistered
    ensures !s.player.isPlaying && !s.player.released && s.player.media.None?
    ensures !s.player.playWhenReady
    ensures s.hasAccelerometer == hasAccelerometer && s.prefs == prefs
    ensures s.player.volume == DefaultVolume
  {
    State(Player(None, false, false, CurrentVolume(None), false), false, hasAccelerometer, false, prefs)
  }

  /** The store emitted its contents: the collector applies the observed volume to the player. */
  function OnVolumeEmitted(s: State, p: Preferences): (s': State)
    requires Valid(s) && WellFormed(p)
    ensures Valid(s')
    ensures s'.player.volume == UserVolume(p)
    ensures s'.player.(volume := s.player.volume) == s.player
    ensures s'.(player := s.player) == s
  {
    s.(player := s.player.(volume := CurrentVolume(Some(p))))
  }

  /** The player reported a change of its playing state. */
  function OnIsPlayingChanged(s: State, isPlaying: bool): (s': State)
    ensures s'.player.isPlaying == isPlaying
    ensures s'.player.(isPlaying := s.player.isPlaying) == s.player
    ensures s'.(player := s.player) == s
  {
    s.(player := s.player.(isPlaying := isPlaying))
  }

  /** `playMedia`: load the uri and start playing it. */
  function PlayMedia(s: State, uri: string): (s': State)
    ensures s'.player.media == Some(uri) && s'.player.playWhenReady
    ensures s'.player.volume == s.player.volume && s'.player.isPlaying == s.player.isPlaying
    ensures s'.player.released == s.player.released
    ensures s'.(player := s.player) == s
  {
    s.(player := s.player.(media := Some(uri), playWhenReady := true))
  }

  /** `togglePlayPause`: pause a playing player, ask any other to play. */
  function TogglePlayPause(s: State): (s': State)
    ensures s.player.isPlaying ==> !s'.player.playWhenReady && !s'.player.isPlaying
    ensures !s.player.isPlaying ==> s'.player.playWhenReady && !s'.player.isPlaying
    ensures s'.player.media == s.player.media && s'.player.volume == s.player.volume
    ensures s'.player.released == s.player.released
    ensures s'.(player := s.player) == s
  {
    if s.player.isPlaying then s.(player := s.player.(playWhenReady := false, isPlaying := false))
    else s.(player := s.player.(playWhenReady := true))
  }

  /** Pausing and then resuming asks the player to play the same item again. */
  lemma PauseThenPlayResumes(s: State)
    requires s.player.isPlaying
    ensures var s' := TogglePlayPause(TogglePlayPause(s));
      s'.player.playWhenReady && s'.player.media == s.player.media && s'.(player := s.player) == s
  {
  }

  /** `releasePlayer`: release the player and unregister the listener; the toggle keeps its value. */
  function ReleasePlayer(s: State): (s': State)
    requires Valid(s)
    ensures Valid(s')
    ensures s'.player.released && !s'.listenerRegistered
    ensures s'.player.(released := s.player.released) == s.player
    ensures s'.(player := s.player, listenerRegistered := s.listenerRegistered) == s
  {
    s.(player := s.player.(released := true), listenerRegistered := false)
  }

  /**
   * After a release with the toggle on, the toggle reads on while nothing listens;
   * it takes two toggles, off and on again, to re-register the listener.
   */
  lemma ReleaseThenToggleTwiceReregisters(s: State)
    requires Valid(s) && s.accelerometerEnabled
    ensures var r := ReleasePlayer(s);
      && r.accelerometerEnabled && !r.listenerRegistered
      && !ToggleAccelerometer(r).listenerRegistered
      && var s' := ToggleAccelerometer(ToggleAccelerometer(r));
         s'.accelerometerEnabled && (s'.listenerRegistered <==> s.hasAccelerometer) && s'.player.released
  {
  }

  /**
   * `toggleAccelerometer`: flip the toggle; turning it on registers the listener
   * when a sensor exists, turning it off unregisters it.
   */
  function ToggleAccelerometer(s: State): (s': State)
    requires Valid(s)
    ensures Valid(s')
    ensures s'.accelerometerEnabled == !s.accelerometerEnabled
    ensures !s.accelerometerEnabled ==> (s'.listenerRegistered <==> s.hasAccelerometer)
    ensures s.accelerometerEnabled ==> !s'.listenerRegistered
    ensures s'.player == s.player && s'.prefs == s.prefs && s'.hasAccelerometer == s.hasAccelerometer
  {
    if !s.accelerometerEnabled then
      s.(accelerometerEnabled := true, listenerRegistered := s.listenerRegistered || s.hasAccelerometer)
    else
      s.(accelerometerEnabled := false, listenerRegistered := false)
  }

  /** Toggling twice restores the toggle and leaves no listener behind. */
  lemma ToggleTwice(s: State)
    requires Valid(s)
    ensures var s' := ToggleAccelerometer(ToggleAccelerometer(s));
      && s'.accelerometerEnabled == s.accelerometerEnabled
      && (s.accelerometerEnabled ==> (s'.listenerRegistered <==> s.hasAccelerometer))
      && (!s.accelerometerEnabled ==> !s'.listenerRegistered)
  {
  }

  /** The tilt map: y = -5 is silence, y = 5 full volume, linear in between, clamped outside. */
  function TiltVolume(y: real): (v: real)
    ensures 0.0 <= v <= 1.0
    ensures y <= TiltLow ==> v == 0.0
    ensures y >= TiltHigh ==> v == 1.0
  {
    CoerceIn((y + 5.0) / 10.0, 0.0, 1.0)
  }

  /** Tilting further never lowers the volume. */
  lemma TiltVolumeMonotone(y1: real, y2: real)
    requires y1 <= y2
    ensures TiltVolume(y1) <= TiltVolume(y2)
  {
  }

  /** Every volume in [0,1] is reached, by the tilt that the linear map sends to it. */
  lemma TiltVolumeReachesEveryVolume(v: real)
    requires 0.0 <= v <= 1.0
    ensures TiltVolume(10.0 * v - 5.0) == v
  {
  }

  /** `setVolume`: the player and the store get the same coerced volume. */
  function SetVolume(s: State, volume: real): (s': State)
    requires Valid(s)
    ensures Valid(s')
    ensures s'.player.volume == UserVolume(s'.prefs) == Clamp01(volume)
    ensures forall k :: k in s.prefs && k != VolumeKey ==> k in s'.prefs && s'.prefs[k] == s.prefs[k]
    ensures s'.prefs.Keys == s.prefs.Keys + {VolumeKey}
    ensures s'.player.(volume := s.player.volume) == s.player
    ensures s'.(player := s.player, prefs := s.prefs) == s
  {
    var v := Clamp01(volume);
    s.(player := s.player.(volume := v), prefs := SaveVolume(s.prefs, v))
  }

  /** When the store echoes a volume just set, applying it again changes nothing. */
  lemma StoreEchoAgreesWithPlayer(s: State, volume: real)
    requires Valid(s)
    ensures var s' := SetVolume(s, volume); OnVolumeEmitted(s', s'.prefs) == s'
  {
  }

  /** `onSensorChanged`: an accelerometer reading sets the tilt volume; any other event does nothing. */
  function OnSensorChanged(s: State, e: SensorEvent): (s': State)
    requires Valid(s)
    ensures Valid(s')
    ensures e.Reading? && e.sensorType == TypeAccelerometer ==>
      && s'.player.volume == UserVolume(s'.prefs) == TiltVolume(e.y)
      && s'.prefs.Keys == s.prefs.Keys + {VolumeKey}
      && (forall k :: k in s.prefs && k != VolumeKey ==> s'.prefs[k] == s.prefs[k])
      && s'.player.(volume := s.player.volume) == s.player
      && s'.(player := s.player, prefs := s.prefs) == s
    ensures !(e.Reading? && e.sensorType == TypeAccelerometer) ==> s' == s
  {
    match e
    case Reading(t, _, y, _) =>
      if t == TypeAccelerometer then SetVolume(s, TiltVolume(y)) else s
    case NoEvent => s
  }
}

=== FILE: recording_screen.dfy ===
/**
 * The recording screen: the permission gate, the audio record/stop button, the
 * image and video capture buttons with their camera results, and the naming of
 * the files they create. The screen's calls into the recorder, the camera and the
 * media view model are returned as a list of effects, in call order.
 */
module RecordingScreen {

  import opened Wrappers
  import opened Media

  /** The external-files directories media is written to. */
  datatype Directory = Music | Pictures | Movies

  datatype File = File(dir: Directory, name: string)

  function DirectoryOf(t: MediaType): Directory
  {
    match t
    case Audio => Music
    case Image => Pictures
    case Video => Movies
  }

  function ExtensionOf(t: MediaType): (ext: string)
    ensures |ext| == 4 && ext[0] == '.'
  {
    match t
    case Audio => ".mp3"
    case Image => ".jpg"
    case Video => ".mp4"
  }

  /** The kind's name, an underscore, the timestamp (`yyyyMMdd_HHmmss`), the extension. */
  function FileName(t: MediaType, timestamp: string): (name: string)
    ensures |name| == |timestamp| + 10
    ensures name[..5] == KindName(t) && name[5] == '_'
    ensures name[6..|name| - 4] == timestamp && name[|name| - 4..] == ExtensionOf(t)
  {
    KindName(t) + "_" + timestamp + ExtensionOf(t)
  }

  /** `createTempFile`: the kind's directory and a name built from the kind and the clock's timestamp. */
  function CreateTempFile(t: MediaType, timestamp: string): (f: File)
    ensures ParseFileName(f.name) == Some((t, timestamp))
    ensures f.dir == DirectoryOf(t)
  {
    FileNameRoundTrip(t, timestamp);
    File(DirectoryOf(t), FileName(t, timestamp))
  }

  /** Directory and extension each identify the kind of media stored. */
  lemma StorageDistinguishesKinds(t1: MediaType, t2: MediaType)
    ensures DirectoryOf(t1) == DirectoryOf(t2) ==> t1 == t2
    ensures ExtensionOf(t1) == ExtensionOf(t2) ==> t1 == t2
  {
  }

  /** Reads a kind and a timestamp back from a file name, when it has the shape FileName produces. */
  function ParseFileName(name: string): Option<(MediaType, string)>
  {
    if |name| < 10 || name[5] != '_' then None
    else
      match KindOfName(name[..5])
      case None => None
      case Some(t) =>
        if name[|name| - 4..] == ExtensionOf(t) then Some((t, name[6..|name| - 4])) else None
  }

  lemma FileNameRoundTrip(t: MediaType, timestamp: string)
    ensures ParseFileName(FileName(t, timestamp)) == Some((t, timestamp))
  {
    KindNamesRoundTrip(t);
  }

  /** Different kinds or different timestamps never share a file name. */
  lemma FileNamesDistinct(t1: MediaType, ts1: string, t2: MediaType, ts2: string)
    requires FileName(t1, ts1) == FileName(t2, ts2)
    ensures t1 == t2 && ts1 == ts2
  {
    FileNameRoundTrip(t1, ts1);
    FileNameRoundTrip(t2, ts2);
  }

  /** The screen's remembered state. */
  datatype Screen = Screen(
    hasPermissions: bool,
    isRecordingAudio: bool,
    currentAudioFile: Option<File>,
    tempImageUri: Option<string>,
    tempVideoUri: Option<string>)

  /** The calls the screen makes, in order. */
  datatype Effect =
    | RequestPermissions(permissions: seq<string>)
    | StartRecorder(file: File)
    | StopRecorder
    | InsertFromFile(file: File, kind: MediaType)
    | InsertFromUri(uri: string, kind: MediaType)
    | LaunchCamera(kind: MediaType, uri: string)

  datatype Button = GrantPermissions | RecordAudio | CaptureImage | CaptureVideo

  const Initial: Screen := Screen(false, false, None, None, None)

  /** A file is held exactly while audio is being recorded, and it is an audio file. */
  predicate Valid(s: Screen)
  {
    && (s.isRecordingAudio <==> s.currentAudioFile.Some?)
    && (s.currentAudioFile.Some? ==>
         s.currentAudioFile.value.dir == Music && ParseFileName(s.currentAudioFile.value.name).Some?
         && ParseFileName(s.currentAudioFile.value.name).value.0 == Audio)
  }

  /** The grant button shows without permissions; the three recording controls only with them. */
  predicate Shown(s: Screen, b: Button)
  {
    if b == GrantPermissions then !s.hasPermissions else s.hasPermissions
  }

  /** The capture buttons are disabled while audio is recording. */
  predicate Enabled(s: Screen, b: Button)
  {
    (b == CaptureImage || b == CaptureVideo) ==> !s.isRecordingAudio
  }

  /** The screen's first state satisfies the invariant and shows only the grant button. */
  lemma InitialIsValid()
    ensures Valid(Initial)
    ensures Shown(Initial, GrantPermissions) && !Shown(Initial, RecordAudio)
  {
  }

  /**
   * Either the grant button or the three recording controls are shown, never both;
   * the record button is always enabled, the capture buttons only while no audio records.
   */
  lemma ControlsFollowPermissionGate(s: Screen)
    ensures Shown(s, GrantPermissions) <==> !Shown(s, RecordAudio)
    ensures Shown(s, RecordAudio) == Shown(s, CaptureImage) == Shown(s, CaptureVideo) == s.hasPermissions
    ensures Enabled(s, GrantPermissions) && Enabled(s, RecordAudio)
    ensures Enabled(s, CaptureImage) == Enabled(s, CaptureVideo) == !s.isRecordingAudio
  {
  }

  /**
   * The permission result as written: granted when every returned answer is
   * positive. An empty answer, which the platform returns for an interrupted
   * request, counts as granted.
   */
  function AllAnswersGranted(results: map<string, bool>): (granted: bool)
    ensures granted <==> forall p :: p in results ==> results[p]
    ensures results == map[] ==> granted
  {
    forall p :: p in results ==> results[p]
  }

  /** The permission result as intended: every required permission was answered and granted. */
  function RequiredGranted(required: seq<string>, results: map<string, bool>): (granted: bool)
    ensures granted ==> forall i :: 0 <= i < |required| ==> required[i] in results && results[required[i]]
    ensures |required| > 0 && results == map[] ==> !granted
  {
    var granted := forall i :: 0 <= i < |required| ==> required[i] in results && results[required[i]];
    assert |required| > 0 && results == map[] ==> required[0] !in results && !granted;
    granted
  }

  /** The two readings agree on every answer that covers exactly the required permissions. */
  lemma PermissionReadingsAgreeOnFullAnswers(required: seq<string>, results: map<string, bool>)
    requires forall p :: p in results <==> p in required
    ensures AllAnswersGranted(results) == RequiredGranted(required, results)
  {
    if AllAnswersGranted(results) {
      forall i | 0 <= i < |required|
        ensures required[i] in results && results[required[i]]
      {
        assert required[i] in required;
      }
    }
  }

  /** An interrupted request (an empty answer) opens the recording controls, though nothing was granted. */
  lemma InterruptedRequestShowsControls(s: Screen, required: seq<string>)
    requires |required| > 0
    ensures OnPermissionResult(s, map[]).hasPermissions
    ensures !OnPermissionResultIntended(s, required, map[]).hasPermissions
  {
  }

  /** The permission dialog's answer, as written. */
  function OnPermissionResult(s: Screen, results: map<string, bool>): (s': Screen)
    ensures s'.hasPermissions == AllAnswersGranted(results)
    ensures s'.(hasPermissions := s.hasPermissions) == s
  {
    s.(hasPermissions := AllAnswersGranted(results))
  }

  /** The permission dialog's answer, as intended. */
  function OnPermissionResultIntended(s: Screen, required: seq<string>, results: map<string, bool>): (s': Screen)
    ensures s'.hasPermissions ==> forall i :: 0 <= i < |required| ==> required[i] in results && results[required[i]]
    ensures s'.(hasPermissions := s.hasPermissions) == s
  {
    s.(hasPermissions := RequiredGranted(required, results))
  }

  /**
   * The first composition: permissions are granted when every required one is
   * already held; otherwise the dialog is opened.
   */
  function OnFirstComposition(s: Screen, required: seq<string>, held: set<string>): (r: (Screen, seq<Effect>))
    ensures r.0.hasPermissions <==> forall i :: 0 <= i < |required| ==> required[i] in held
    ensures r.1 == if r.0.hasPermissions then [] else [RequestPermissions(required)]
    ensures r.0.(hasPermissions := s.hasPermissions) == s
  {
    var granted := forall i :: 0 <= i < |required| ==> required[i] in held;
    (s.(hasPermissions := granted), if granted then [] else [RequestPermissions(required)])
  }

  /**
   * A click. A button that is not shown or not enabled does nothing. The record
   * button stops (stop the recorder, insert the held file as audio, clear) or
   * starts (create the file, hold it, start the recorder); a capture button
   * creates a file, remembers its content uri and opens the camera on it.
   */
  function Click(s: Screen, b: Button, required: seq<string>, timestamp: string,
                 contentUriOf: File -> string): (r: (Screen, seq<Effect>))
    requires Valid(s)
    ensures Valid(r.0)
    ensures !Shown(s, b) || !Enabled(s, b) ==> r == (s, [])
    ensures r.0.hasPermissions == s.hasPermissions
  {
    if !Shown(s, b) || !Enabled(s, b) then (s, [])
    else
      match b
      case GrantPermissions => (s, [RequestPermissions(required)])
      case RecordAudio =>
        if s.isRecordingAudio then
          var inserts := match s.currentAudioFile
            case Some(f) => [InsertFromFile(f, Audio)]
            case None => [];
          (s.(isRecordingAudio := false, currentAudioFile := None), [StopRecorder] + inserts)
        else
          var f := CreateTempFile(Audio, timestamp);
          (s.(currentAudioFile := Some(f), isRecordingAudio := true), [StartRecorder(f)])
      case CaptureImage =>
        var uri := contentUriOf(CreateTempFile(Image, timestamp));
        (s.(tempImageUri := Some(uri)), [LaunchCamera(Image, uri)])
      case CaptureVideo =>
        var uri := contentUriOf(CreateTempFile(Video, timestamp));
        (s.(tempVideoUri := Some(uri)), [LaunchCamera(Video, uri)])
  }

  /** The record button starts a recording into a fresh audio file when idle. */
  lemma RecordClickStarts(s: Screen, required: seq<string>, timestamp: string, contentUriOf: File -> string)
    requires Valid(s) && s.hasPermissions && !s.isRecordingAudio
    ensures var r := Click(s, RecordAudio, required, timestamp, contentUriOf);
      && r.0.isRecordingAudio
      && r.0.currentAudioFile == Some(CreateTempFile(Audio, timestamp))
      && r.1 == [StartRecorder(CreateTempFile(Audio, timestamp))]
  {
  }

  /** The record button, while recording, stops, inserts the held file as audio, and clears. */
  lemma RecordClickStops(s: Screen, required: seq<string>, timestamp: string, contentUriOf: File -> string)
    requires Valid(s) && s.hasPermissions && s.isRecordingAudio
    ensures var r := Click(s, RecordAudio, required, timestamp, contentUriOf);
      && !r.0.isRecordingAudio && r.0.currentAudioFile.None?
      && r.1 == [StopRecorder, InsertFromFile(s.currentAudioFile.value, Audio)]
  {
  }

  /** Start then stop inserts, as audio, exactly the file the recorder was started on. */
  lemma RecordThenStopInsertsRecordedFile(s: Screen, required: seq<string>, ts1: string, ts2: string,
                                          contentUriOf: File -> string)
    requires Valid(s) && s.hasPermissions && !s.isRecordingAudio
    ensures var r1 := Click(s, RecordAudio, required, ts1, contentUriOf);
      var r2 := Click(r1.0, RecordAudio, required, ts2, contentUriOf);
      && r1.1 + r2.1 == [StartRecorder(CreateTempFile(Audio, ts1)), StopRecorder,
                         InsertFromFile(CreateTempFile(Audio, ts1), Audio)]
      && r2.0 == s
  {
  }

  /** The capture buttons are usable exactly when permissions are held and no audio is recording. */
  lemma CaptureUsableIffIdle(s: Screen, b: Button)
    requires b == CaptureImage || b == CaptureVideo
    ensures Shown(s, b) && Enabled(s, b) <==> s.hasPermissions && !s.isRecordingAudio
  {
  }

  /** Without permissions, none of the recording controls has any effect. */
  lemma NoPermissionsNoRecording(s: Screen, b: Button, required: seq<string>, timestamp: string,
                                 contentUriOf: File -> string)
    requires Valid(s) && !s.hasPermissions && b != GrantPermissions
    ensures Click(s, b, required, timestamp, contentUriOf) == (s, [])
  {
  }

  /**
   * The camera's answer for a capture of kind `t`: the pending uri is inserted with
   * that kind only on success, and cleared either way.
   */
  function OnCaptureResult(s: Screen, t: MediaType, success: bool): (r: (Screen, seq<Effect>))
    requires t == Image || t == Video
    requires Valid(s)
    ensures Valid(r.0)
    ensures t == Image ==> r.0.tempImageUri.None? && r.0.tempVideoUri == s.tempVideoUri
    ensures t == Video ==> r.0.tempVideoUri.None? && r.0.tempImageUri == s.tempImageUri
    ensures var pending := if t == Image then s.tempImageUri else s.tempVideoUri;
      r.1 == if success && pending.Some? then [InsertFromUri(pending.value, t)] else []
    ensures r.0.isRecordingAudio == s.isRecordingAudio && r.0.currentAudioFile == s.currentAudioFile
  {
    var pending := if t == Image then s.tempImageUri else s.tempVideoUri;
    var effects := if success && pending.Some? then [InsertFromUri(pending.value, t)] else [];
    if t == Image then (s.(tempImageUri := None), effects) else (s.(tempVideoUri := None), effects)
  }

  /** A successful capture inserts, with its kind, the uri the camera was opened on. */
  lemma CaptureRoundTrip(s: Screen, t: MediaType, required: seq<string>, timestamp: string,
                         contentUriOf: File -> string)
    requires Valid(s) && s.hasPermissions && !s.isRecordingAudio
    requires t == Image || t == Video
    ensures var b := if t == Image then CaptureImage else CaptureVideo;
      var r1 := Click(s, b, required, timestamp, contentUriOf);
      var uri := contentUriOf(CreateTempFile(t, timestamp));
      && r1.1 == [LaunchCamera(t, uri)]
      && OnCaptureResult(r1.0, t, true).1 == [InsertFromUri(uri, t)]
      && OnCaptureResult(r1.0, t, false).1 == []
  {
  }
}

=== FILE: routes.dfy ===
/** The navigation destinations, their routes, and the bottom bar. */
module Routes {

  import opened Wrappers

  datatype Screen = Recording | AudioList | ImageList | VideoList | VideoPlayer

  /** The fixed part of the video player's route, before its `{uri}` argument. */
  const VideoPlayerPrefix: string := "video_player/"

  /**
   * The route a destination is registered under: the bar destinations are single
   * literal path segments, and only the player's template lies under the player prefix.
   */
  function Route(s: Screen): (r: string)
    ensures s != VideoPlayer ==> IsSegment(r)
    ensures s == VideoPlayer <==> |r| > |VideoPlayerPrefix| && r[..|VideoPlayerPrefix|] == VideoPlayerPrefix
  {
    match s
    case Recording => "recording"
    case AudioList => "audio"
    case ImageList => "images"
    case VideoList => "videos"
    case VideoPlayer => VideoPlayerPrefix + "{uri}"
  }

  /** The bottom bar's destinations, in order; the player is reached only from the video list. */
  const NavBarItems: seq<Screen> := [Recording, AudioList, ImageList, VideoList]

  /** `createRoute`: the player's route carrying an (already encoded) uri. */
  function CreateRoute(uri: string): (route: string)
    ensures |route| == |VideoPlayerPrefix| + |uri|
    ensures route[..|VideoPlayerPrefix|] == VideoPlayerPrefix && route[|VideoPlayerPrefix|..] == uri
  {
    VideoPlayerPrefix + uri
  }

  /** A path segment a `{uri}` placeholder can take: non-empty, without `/`. */
  predicate IsSegment(s: string)
  {
    |s| > 0 && forall i :: 0 <= i < |s| ==> s[i] != '/'
  }

  /**
   * Which destination the navigation host sends a route to and the argument it
   * hands over: the four bar routes match exactly; the player's template matches
   * its prefix and one segment, which the host percent-decodes (`decode`) before
   * the destination reads it.
   */
  function Resolve(route: string, decode: string -> string): (r: Option<(Screen, Option<string>)>)
    ensures r.Some? && r.value.0 != VideoPlayer ==> route == Route(r.value.0) && r.value.1.None?
    ensures r.Some? && r.value.0 == VideoPlayer ==>
      && |route| > |VideoPlayerPrefix| && route == CreateRoute(route[|VideoPlayerPrefix|..])
      && IsSegment(route[|VideoPlayerPrefix|..])
      && r.value.1 == Some(decode(route[|VideoPlayerPrefix|..]))
    ensures r.None? <==>
      && (forall s: Screen :: s != VideoPlayer ==> route != Route(s))
      && !(|route| > |VideoPlayerPrefix| && route[..|VideoPlayerPrefix|] == VideoPlayerPrefix
           && IsSegment(route[|VideoPlayerPrefix|..]))
  {
    if route == Route(Recording) then Some((Recording, None))
    else if route == Route(AudioList) then Some((AudioList, None))
    else if route == Route(ImageList) then Some((ImageList, None))
    else if route == Route(VideoList) then Some((VideoList, None))
    else if |route| > |VideoPlayerPrefix| && route[..|VideoPlayerPrefix|] == VideoPlayerPrefix
            && IsSegment(route[|VideoPlayerPrefix|..]) then
      assert route == CreateRoute(route[|VideoPlayerPrefix|..]);
      Some((VideoPlayer, Some(decode(route[|VideoPlayerPrefix|..]))))
    else None
  }

  /** Every bar route reaches its own screen. */
  lemma BarRoutesResolve(i: int, decode: string -> string)
    requires 0 <= i < |NavBarItems|
    ensures Resolve(Route(NavBarItems[i]), decode) == Some((NavBarItems[i], None))
  {
  }

  /** A route built from a segment reaches the player, which is handed the decoded segment. */
  lemma CreateRouteResolves(segment: string, decode: string -> string)
    requires IsSegment(segment)
    ensures Resolve(CreateRoute(segment), decode) == Some((VideoPlayer, Some(decode(segment))))
  {
    var route := CreateRoute(segment);
    assert route[..|VideoPlayerPrefix|] == VideoPlayerPrefix;
    assert route != Route(Recording) && route != Route(AudioList);
    assert route != Route(ImageList) && route != Route(VideoList);
  }

  /**
   * Opening a video: the list encodes the uri into the route, the host decodes the
   * argument, and the player screen decodes it once more. When encoding yields one
   * segment that decoding inverts, the screen receives `decode(uri)`: the uri itself
   * exactly when a second decoding leaves it unchanged.
   */
  lemma OpenVideoDecodesTwice(uri: string, encode: string -> string, decode: string -> string)
    requires IsSegment(encode(uri))
    requires decode(encode(uri)) == uri
    ensures var r := Resolve(CreateRoute(encode(uri)), decode);
      && r == Some((VideoPlayer, Some(uri)))
      && decode(r.value.1.value) == decode(uri)
  {
    CreateRouteResolves(encode(uri), decode);
  }

  /** The five routes are pairwise distinct, and the template shares the prefix `createRoute` uses. */
  lemma RoutesDistinct(a: Screen, b: Screen)
    ensures Route(a) == Route(b) ==> a == b
    ensures Route(VideoPlayer)[..|VideoPlayerPrefix|] == VideoPlayerPrefix
  {
  }

  /** No route built by `createRoute` is a bar route. */
  lemma CreatedRouteNotOnBar(uri: string, i: int)
    requires 0 <= i < |NavBarItems|
    ensures CreateRoute(uri) != Route(NavBarItems[i])
  {
    var route := CreateRoute(uri);
    assert route[0] == 'v' && |route| >= 13;
  }

  /** The bar holds four distinct screens and not the player. */
  lemma NavBarShape()
    ensures |NavBarItems| == 4 && VideoPlayer !in NavBarItems
    ensures forall i, j :: 0 <= i < j < |NavBarItems| ==> NavBarItems[i] != NavBarItems[j]
  {
  }
}

=== FILE: settings.dfy ===
/** The key-value settings store holding the playback volume. */
module Settings {

  /** The preference key of the volume. */
  const VolumeKey: string := "volume_level"

  /** The volume read when none has been stored. */
  const DefaultVolume: real := 0.5

  /** The store's contents: float preferences by key name. */
  type Preferences = map<string, real>

  function Abs(x: real): real
  {
    if x < 0.0 then -x else x
  }

  /** `coerceIn(lo, hi)`: the value itself when in range, else the nearer bound. */
  function CoerceIn(v: real, lo: real, hi: real): (r: real)
    requires lo <= hi
    ensures lo <= r <= hi
    ensures lo <= v <= hi ==> r == v
  {
    if v < lo then lo else if v > hi then hi else v
  }

  /** `coerceIn(0, 1)`, the volume range. */
  function Clamp01(v: real): (r: real)
    ensures 0.0 <= r <= 1.0
  {
    CoerceIn(v, 0.0, 1.0)
  }

  /** The coerced value is the point of the range nearest to the input. */
  lemma CoerceInIsNearest(v: real, lo: real, hi: real, u: real)
    requires lo <= hi
    requires lo <= u <= hi
    ensures Abs(CoerceIn(v, lo, hi) - v) <= Abs(u - v)
  {
  }

  /** Coercing twice is coercing once. */
  lemma CoerceInIdempotent(v: real, lo: real, hi: real)
    requires lo <= hi
    ensures CoerceIn(CoerceIn(v, lo, hi), lo, hi) == CoerceIn(v, lo, hi)
  {
  }

  /** `userVolume`: the stored volume, or the default when none is stored. */
  function UserVolume(p: Preferences): (v: real)
    ensures VolumeKey !in p ==> v == DefaultVolume
    ensures VolumeKey in p ==> v == p[VolumeKey]
  {
    if VolumeKey in p then p[VolumeKey] else DefaultVolume
  }

  /** Every volume ever stored lies in [0,1]. */
  predicate WellFormed(p: Preferences)
  {
    VolumeKey in p ==> 0.0 <= p[VolumeKey] <= 1.0
  }

  /** `saveVolume`: stores the coerced volume under its key and touches no other key. */
  function SaveVolume(p: Preferences, volume: real): (p': Preferences)
    ensures WellFormed(p) ==> WellFormed(p')
    ensures p'.Keys == p.Keys + {VolumeKey}
    ensures forall k :: k in p && k != VolumeKey ==> p'[k] == p[k]
    ensures 0.0 <= p'[VolumeKey] <= 1.0
  {
    p[VolumeKey := Clamp01(volume)]
  }

  /** A well-formed store reads a volume in [0,1]. */
  lemma ReadVolumeInRange(p: Preferences)
    requires WellFormed(p)
    ensures 0.0 <= UserVolume(p) <= 1.0
  {
  }

  /** Reading after a save gives the coerced value; a value in range comes back unchanged. */
  lemma ReadAfterSave(p: Preferences, volume: real)
    ensures UserVolume(SaveVolume(p, volume)) == Clamp01(volume)
    ensures 0.0 <= volume <= 1.0 ==> UserVolume(SaveVolume(p, volume)) == volume
  {
  }

  /** Saving back what was just read after a save changes nothing. */
  lemma SaveIdempotent(p: Preferences, volume: real)
    ensures var p' := SaveVolume(p, volume); SaveVolume(p', UserVolume(p')) == p'
  {
  }
}

=== FILE: wrappers.dfy ===
/** Optional values, standing in for the nullable references of the application. */
module Wrappers {

  datatype Option<+T> = None | Some(value: T) {

    /** Kotlin's elvis operator `x ?: default`. */
    function GetOr(default: T): T {
      match this
      case Some(v) => v
      case None => default
    }
  }

  /** The outcome of a step that may throw an exception. */
  datatype Attempt<+T> = Ok(value: T) | Threw
}
